=== FILE: README.md ===
# A verified model of the peg parser's span log and match engine

`peg.peg.go` is the parser that the peg tool generates for its own grammar
language. This project models its core in Dafny:

- **The span log** (`tokens16` / `tokens32`).
  - While parsing, every rule that succeeds records one token: a rule id, a
    `[begin, end)` span and, in the field `next`, the nesting depth at which
    it was recorded.
  - The log lives in a fixed-size slice that `Expand` doubles when needed.
    The 16-bit log promotes itself once to the 32-bit one.
  - `Order` buckets the log by depth and renumbers each token with its index.
  - `Error` picks the deepest failed path out of that view.
  - `PreOrder` walks the view depth-first and rebuilds the parse tree from
    interval containment (`isParentOf`). It fills the uncovered stretches
    with the synthetic gap tokens `Pre_`, `_In_` and `_Suf`.
- **`translatePositions`**: maps sorted byte offsets to (line, symbol)
  pairs in one scan.
- **The match engine.**
  - `Init` appends the `END_SYMBOL` sentinel (rune 4) to the input.
  - The engine's closures share the cursor (position, tokenIndex, depth).
  - `add` records a span; `matchDot` consumes any character except the
    sentinel; `Parse` trims the log on success; `Reset` zeroes the cursor.
  - Every generated rule closure follows one protocol: snapshot the cursor,
    run the body one level deeper, then either record its own span or
    restore the snapshot.
  - A representative set of rule closures is modelled on top of this
    protocol: EndOfLine, EndOfFile, Space, Comment, Spacing, LeftArrow,
    IdentStart, IdentCont, Identifier, the action closures, and Definition
    with its lookahead.

Modules (one file each):

- `Wrappers`: `Option`.
- `Tokens`: the token record, the rule ids and `isParentOf`.
- `TokenLog`: the log, `Add`, `trim` and `Expand`.
- `Ordering`: `Order` and `Error`.
- `PreOrder`: the walk.
- `Positions`: `translatePositions`.
- `Engine`: the cursor, `Init`, `add`, `matchDot`, `Parse`, `Reset` and the
  rule protocol.
- `Rules`: the rule closures.

How the Go code is represented:

- The engine's primitives (`add`, `matchDot`, the character tests and the
  rule frame) are pure functions. Each takes and returns a `Machine`, which
  holds the cursor and the log.
- The rule closures are methods that take a `Machine` and return an
  `Outcome`. Their contracts are all a caller sees, just as a Go closure
  only sees the shared cursor. Each `*` repetition is a loop.
- A rule returns an `Outcome` (matched, machine). A failed rule keeps the log
  it wrote to: the stale tokens above `tokenIndex` stay in the log, because
  `Error` later reads them.
- In `Order`'s view and the `PreOrder` walk, index-out-of-range panics are
  modelled as `None`, `Crash` or `Panicked` results. Elsewhere the panics are
  excluded by preconditions, listed under "Left out".
- `Expand` returns a pair: the receiver as it is after the call, and the
  optional new log that Go returns.
  - The 16-bit log returns a fresh 32-bit copy and stays unchanged itself.
  - The 32-bit log grows in place and returns `nil`.
  - A `wide` flag marks the 32-bit log.
- `PreOrder` is an eager recursive function. Its measure is the number of
  unread slots in the view.
- A `Visit` keeps the token as it appears in the view, where `next` is the
  token's index in the log, and keeps the walk depth as a separate field. The
  Go code overwrites `next` with the depth in the state it sends.

## Model

| member | source | states |
|---|---|---|
| Tokens.IsParentOf | peg.peg.go:223-225 | `t` is a parent of `u` when its span covers `u`'s span and `t.next` is strictly greater; the contracts of the next two rows state its order properties |
| Tokens.ParentOfIrreflexive | peg.peg.go:223-225 | no token is its own parent, because the `next` comparison is strict |
| Tokens.ParentOfTransitive | peg.peg.go:223-225 | containment is transitive: a parent of a parent is a parent |
| TokenLog.Initial | peg.peg.go:883 | the engine starts with a 16-bit log of `math.MaxInt16` zero tokens and no cached view |
| TokenLog.Add | peg.peg.go:415-417 | slot `index` receives (rule, begin, end, depth); every other slot, the length, the width and the cache are unchanged |
| TokenLog.Trim | peg.peg.go:240-242 | the log becomes exactly its first `length` tokens, unchanged |
| TokenLog.TrimIdempotent | peg.peg.go:240-242 | trimming twice to the same length is the same as trimming once |
| TokenLog.Expand | peg.peg.go:673-693 | below the end nothing changes and nothing is returned; at or past the end the grown tree has twice the length, the old tokens first and zero tokens after them; the 16-bit log returns a new 32-bit log with no cache and is itself unchanged, while the 32-bit log grows in place and returns nothing |
| TokenLog.Grow | peg.peg.go:904-908 | the log `add` writes to after `Expand`: the slot at `tokenIndex` exists, old tokens are kept, a full log doubles and becomes 32-bit, a non-full log is unchanged |
| Ordering.LiveLength | peg.peg.go:256-260 | the cut point is the first `RuleUnknown` token: every token before it is known |
| Ordering.Height | peg.peg.go:261-267 | the deepest recorded depth bounds every token's depth |
| Ordering.HeightAttained | peg.peg.go:256-268 | `Height` is attained: unless it is 0, some live token was recorded at exactly that depth, so the depth-count slice is no longer than needed |
| Ordering.Buckets | peg.peg.go:268-281 | there is one bucket per depth from 0 to the deepest recorded depth, plus one extra bucket for the depth after it |
| Ordering.Bucket | peg.peg.go:275-280 | the bucket for depth d lists exactly the tokens recorded at depth d, each renumbered with its own index, in strictly increasing index order, and none is missing |
| Ordering.Order | peg.peg.go:250-283 | a cached view is returned unchanged; otherwise the tree is cut at the first `RuleUnknown` token and the new view is cached |
| Ordering.OrderedView | peg.peg.go:250-283 | the view of a log whose depths fit has max-depth + 2 buckets; bucket d holds exactly the depth-d tokens, renumbered with their index and in recording order, followed by one zero slot |
| Ordering.OrderCached | peg.peg.go:251-253 | a second `Order` returns the same view and leaves the log as it is |
| Ordering.OrderedHeight | peg.peg.go:262-272 | the number of buckets is the deepest recorded depth plus two |
| Ordering.Error | peg.peg.go:430-441 | `Error` orders the log first and returns one token per bucket |
| Ordering.ErrorDeepestFirst | peg.peg.go:430-441 | entry i is the last token recorded at depth len-1-i, or zero when nothing was recorded at that depth; there are max-depth + 2 entries, and entry 0 (the extra bucket) is always zero |
| PreOrder.Lead | peg.peg.go:310-326 | at most one gap at the current depth: `_In_` runs from the end of the previous sibling to `b.begin`, and `Pre_` from `a.begin` to `b.begin`; it is written only when non-empty, and `Pre_` only when it runs forward |
| PreOrder.Ascend | peg.peg.go:337-357 | the climb resumes only with a known token contained in the current parent, at a depth no deeper than before and with the walk invariant restored; otherwise it emits only non-empty `_Suf` leaves at depths between 1 and the current depth |
| PreOrder.AscendGapsSound | peg.peg.go:337-357 | every `_Suf` leaf of a climb sits at a level it climbs out of and spans from the end of the token just finished to the end of its parent. It is written only when that parent stops later and either the level is the first one (where the parent is taken for granted) or the finished token is really the parent's child |
| PreOrder.AscendGapsComplete | peg.peg.go:337-357 | conversely, every level the climb leaves where such a gap is due receives a `_Suf` leaf at that depth |
| PreOrder.TrailingWalk | peg.peg.go:306-358 | on a concrete log where a definition [0,3) has a single child [0,2), the walk emits the definition as an inner node, the child as a leaf and then a `_Suf` leaf [2,3) for the uncovered tail |
| PreOrder.OuterStep | peg.peg.go:309-358 | `b` is shown as an inner node exactly when the next unread token one level down is a known token that `b` contains; every path re-establishes the walk invariant or reports the panic |
| PreOrder.Walk | peg.peg.go:306-358 | every emitted state has a depth between 1 and the last real bucket, and is either a token of the bucket for its depth or a non-empty gap leaf |
| PreOrder.PreOrder | peg.peg.go:291-362 | orders the log, then walks from the first depth-1 token under the root; every emitted state is a view token at its own depth or a gap leaf |
| PreOrder.WalkShape | peg.peg.go:306-358 | the recorded tokens the walk emits form a pre-order: each inner node is immediately followed by a token one level deeper that it contains, and each leaf by a token at the same depth or shallower |
| PreOrder.WalkInBucketOrder | peg.peg.go:306-358 | at every depth, the tokens the walk emits are a prefix of that depth's bucket, in bucket order |
| PreOrder.WalkCompletes | peg.peg.go:306-358 | on a view whose buckets each end in one zero slot and whose extra top bucket holds only that slot, a walk from a recorded token with cursors that have not passed a zero slot never panics and returns its states |
| PreOrder.PreOrderCompletes | peg.peg.go:291-358 | `PreOrder` on a coherent log that records at least one token at depth 1 completes without panicking |
| PreOrder.PreOrderReconstructs | peg.peg.go:291-362 | for a log without gap labels, a completed walk starts with the first depth-1 token, forms a pre-order, and at every depth shows a prefix of that depth's bucket in recording order |
| PreOrder.SpacedPair | peg.peg.go:291-362 | on the log of "a b" (two depth-1 tokens under one root) the walk emits leaf `a`, an `_In_` gap over the blank, then leaf `b`, and never the root |
| Positions.AfterCounts | peg.peg.go:719-724 | after a prefix, the line is one plus the number of newlines in it, and the symbol is the number of characters since the last newline |
| Positions.ResolveIsComprehension | peg.peg.go:725-733 | resolving requests one after another yields, for every in-range request p, the position after consuming character p |
| Positions.SkipRepeats | peg.peg.go:727-731 | the `for j++` loop moves `j` past every copy of the offset just resolved: all skipped entries equal it, and `j` stops at the end or at the first larger offset |
| Positions.TranslatePositions | peg.peg.go:712-735 | with sorted positions, every requested offset that indexes the buffer maps to the (line, symbol) after the character at that offset; duplicates share one entry; offsets past the end are absent; nothing is resolved when the first request is negative |
| Engine.Init | peg.peg.go:877-884 | the buffer ends with exactly one added sentinel (none when the input already ends with it), the cursor is zero and the log is the initial one |
| Engine.Reset | peg.peg.go:900-902 | the cursor returns to (0, 0, 0) and the log is kept |
| Engine.AddSpan | peg.peg.go:904-910 | slot `tokenIndex` receives (rule, begin, position, depth), `tokenIndex` grows by exactly one, earlier slots are untouched, and the log doubles (to 32-bit) only when it was full |
| Engine.MatchDot | peg.peg.go:912-918 | succeeds and advances by one exactly when the current character is not the sentinel; otherwise nothing changes |
| Engine.MatchChar | peg.peg.go:1451-1454 | the inlined single-character test: succeeds and advances by one exactly when the current character is `c`; otherwise nothing changes |
| Engine.MatchRange | peg.peg.go:1438-1441 | the inlined class test: succeeds and advances by one exactly when the current character lies in [lo, hi]; otherwise nothing changes |
| Engine.Enter | peg.peg.go:1432-1435 | `depth++` at the start of a rule body: the depth grows by one while position, write index and log stay as they are |
| Engine.Close | peg.peg.go:2385-2408 | the generic rule frame: on failure the cursor is back at its entry value; on success the depth is restored and the last token is the rule's own span [entry, exit) at the entry depth, with every token the body wrote inside that span and at least one level deeper, and no two written spans partly overlapping |
| Engine.Capture | peg.peg.go:1400-1418 | the `<...>` capture records its span one level down when its body matches, and passes a failure on unchanged |
| Engine.ObeysProgress | peg.peg.go:1059-1074 | a rule that keeps the protocol is a well-nested step for its caller |
| Engine.ProgressThen | peg.peg.go:1059-1074 | well-nested steps compose when run one after another |
| Engine.ProgressRetain | peg.peg.go:1408-1414 | a failed attempt after a successful prefix, with the prefix's cursor restored, leaves the prefix a well-nested step although the attempt's stale tokens stay in the log |
| Engine.Parse | peg.peg.go:886-898 | on success the log is trimmed to `tokenIndex` and ends with the start rule's span from the entry position; on failure the cursor is restored and the untrimmed log is kept |
| Engine.ParseIsStartRule | peg.peg.go:886-898 | the result is the start rule's: `Parse` succeeds exactly when that rule matches; on success the cursor is the rule's and the log is the rule's log trimmed to `tokenIndex`; on failure the state is exactly what the rule left |
| Engine.ParsedLogIsTree | peg.peg.go:886-898 | after a successful parse from the reset state, the last token spans [0, position) at depth 0; after renumbering by index it is the parent of every other token; of any two tokens, the earlier one either ends before the later one begins or lies inside it at a greater depth; no token carries the zero rule or a gap label |
| Rules.SpacingEndIsMaximal | peg.peg.go:2599-2627 | layout skipping stops only where no blank and no complete comment starts, and skips nothing exactly when none starts at the cursor |
| Rules.EndOfLine | peg.peg.go:2704-2742 | matches exactly at '\r' or '\n', consuming "\r\n" as one line end; keeps the rule protocol and records only its own span |
| Rules.EndOfFile | peg.peg.go:2744-2765 | matches exactly at the sentinel and consumes nothing |
| Rules.Space | peg.peg.go:2668-2702 | matches exactly at a blank, tab or line end, and consumes that one character or line end |
| Rules.CommentText | peg.peg.go:2637-2657 | the `(!EndOfLine .)*` loop always matches, moves only the position, and stops at the first line break or at the sentinel; when it stops at a line break, the `EndOfLine` token its lookahead recorded stays in slot `tokenIndex`, above the restored write index |
| Rules.Comment | peg.peg.go:2628-2667 | matches exactly when a '#' is followed by a line break before the sentinel, and ends after that line end |
| Rules.Spacing | peg.peg.go:2598-2627 | always matches and skips exactly the layout in front of the cursor: it stops where the reference layout scan stops |
| Rules.LeftArrow | peg.peg.go:2384-2408 | matches exactly at "<-", and ends after the layout that follows it |
| Rules.IdentStart | peg.peg.go:1430-1465 | matches exactly one letter or '_' |
| Rules.IdentCont | peg.peg.go:1466-1493 | matches exactly one letter, '_' or digit |
| Rules.IdentText | peg.peg.go:1400-1416 | `IdentStart IdentCont*` matches exactly at an identifier start and stops at the first character that cannot continue an identifier |
| Rules.Identifier | peg.peg.go:1394-1429 | matches exactly at an identifier start, and ends after the name and its layout; the name itself is recorded as a `PegText` span one level down, from the start to the end of the identifier characters |
| Rules.Action | peg.peg.go:2933-2938 | always matches: records an empty span at the cursor at the current depth, and moves nothing but `tokenIndex` |
| Rules.NextDefinition | peg.peg.go:1078-1085 | `Identifier LeftArrow` matches exactly where a new definition starts |
| Rules.DefinitionHead | peg.peg.go:1060-1068 | `Identifier Action3 LeftArrow` matches exactly where a name followed by "<-" starts |
| Rules.DefinitionTail | peg.peg.go:1069-1100 | after any `Expression` closure keeping the protocol, `Action4` and the lookahead, a match ends where the next definition starts or at the sentinel |
| Rules.DefinitionLookahead | peg.peg.go:1075-1100 | the lookahead consumes nothing, and holds exactly where a new definition starts or at the sentinel |
| Rules.Definition | peg.peg.go:1054-1108 | for any `Expression` closure that keeps the protocol, keeps the protocol itself; a match starts only where a name and "<-" start, and ends where the next definition starts or at the end of the input |

## Left out

- Console output is not modelled: `Print`, `PrintSyntax`, `PrintSyntaxTree`, the `String` methods and `parseError.Error`. They only format text with ANSI colours.
- The goroutines and channels in `Tokens` and `PreOrder`, and the 8-slot `State16` ring buffer, are not modelled. They only deliver results lazily; the model computes the same sequence eagerly. The `depths` snapshot each state carries is dropped as well.
- `Tokens()` is not modelled. It only replays the log, widened to 32 bits.
- `Execute` and the `Tree` methods it calls are not part of this model. They are calls into code outside this file.
- Integers are unbounded. The model does not truncate to int16/int32 in `tokens16.Add`, `GetToken32` or `Order`'s int16 depth counters. A 16-bit log never holds more than `math.MaxInt16` slots, because `Expand` switches to 32 bits there. What would still wrap in Go is the following. `tokens16.Add` (peg.peg.go:415-416) stores `begin`, `end` and `next: int16(depth)` truncated to 16 bits, so an offset or a depth beyond 32767 is lost. `Order`'s pool loop (peg.peg.go:270-271) increments an int16 count; when one depth holds 32767 tokens it becomes -32768 and `pool[:depth]` panics.
- Ordering.Order: requires recorded depths in [0, `math.MaxInt16`). Go panics when a depth reaches the capacity of the depth-count slice; the model rules that case out instead of modelling the panic.
- `translatePositions` treats one character as one index. The Go loop ranges over runes but compares byte offsets.
- `sort.Ints` sorting the caller's slice in place is not modelled. Sorted positions are a precondition instead.
- The other generated grammar closures (Grammar, Expression, Sequence, Literal, Class and the rest) and the `Rul3s` name table are not modelled. They repeat the same snapshot/restore pattern. Definition takes `Expression` as a parameter that keeps the rule protocol.
- Rules.Definition: says nothing about how far `Expression` consumes beyond what the protocol guarantees.
- TokenLog.Add: requires `index` inside the tree. Go panics on an index out of range; `add` always expands the log first, so the engine never hits it.
- TokenLog.Trim: requires `length` at most the tree length. Go's `t.tree[0:length]` panics past the slice's capacity and, between length and capacity, re-exposes stale slots; the precondition rules out both. `Parse` only trims to `tokenIndex`, which never exceeds the length.
- TokenLog.Grow: requires a non-empty tree. Doubling an empty slice would leave it empty and the following `Add` would panic; the engine's log starts with `math.MaxInt16` slots.
- Positions.TranslatePositions: requires at least one position when the buffer is non-empty. Go panics reading `positions[0]` in that case; the model excludes it instead of modelling the panic.
- PreOrder.PreOrderReconstructs: does not prove that the walk emits every recorded token. It proves that each depth's emitted tokens are a prefix of that depth's bucket, not the whole bucket.
- PreOrder.PreOrderCompletes: covers only logs that record a token at depth 1. Without one, the walk starts from the zero slot of bucket 1; when nothing deeper is recorded either, Go panics at line 330 reading past the last bucket, where `PreOrder` returns `None`. The remaining logs of this kind are not covered.
- Engine.Parse: takes the start rule as a parameter. Go's `Parse(rule ...int)` defaults to rule 1, `Grammar` (`rules[0]` is `nil`), when no rule is given; the default is not modelled.
- `isZero` is not modelled. The modelled parts of the Go code do not call it.
- The claim that gap tokens together with recorded tokens exactly cover the root span is not proved. The walk never emits the root. Gaps are emitted only relative to the current parent, so the covering depends on how the grammar nests its rules.
- Loop termination: Spacing, Comment and `IdentCont*` terminate because every iterated rule consumes input. The generated code has no empty-match guard of its own.

Two behaviours of the code worth stating explicitly:

- `Error` reads `o[len(o)-2]` of each bucket. Because every bucket ends with one zero slot, that is the **last** token recorded at that depth. `Ordering.ErrorDeepestFirst` states this.
- The walk starts below the root and never emits the root token itself. Gap tokens are emitted relative to the current parent only.

=== FILE: engine.dfy ===
/** The match engine's shared state and primitives: the closures `Init`
    defines around the cursor (`add`, `matchDot`, `Parse`, `Reset`) and the
    snapshot/restore protocol every generated rule closure follows.

    The Go closures share three mutable locals and the log; here the cursor
    is a record threaded through pure functions together with the log. */
module Engine {
  import opened Tokens
  import opened TokenLog

  /** `END_SYMBOL`, the sentinel `Init` appends to the input. */
  const EndSymbol: char := 4 as char

  /** The engine's three shared variables. */
  datatype Cursor = Cursor(position: int, tokenIndex: int, depth: int)

  datatype Machine = Machine(cursor: Cursor, log: Log)

  /** The result of running a rule or a piece of one. A failed piece keeps
      the log it wrote (its tokens stay in the log above `tokenIndex`), while
      its cursor is whatever the enclosing closure will restore. Usable with
      `:-`. */
  datatype Outcome = Outcome(matched: bool, machine: Machine) {
    predicate IsFailure() { !matched }
    function PropagateFailure(): Outcome requires IsFailure() { this }
    function Extract(): Machine requires !IsFailure() { machine }
  }

  /** The input `Init` prepares ends with the sentinel. */
  predicate Terminated(buffer: seq<char>) {
    |buffer| > 0 && buffer[|buffer| - 1] == EndSymbol
  }

  /** The state the engine keeps between steps: the position reads inside
      the buffer, the write index is at most one past the log. */
  predicate Valid(buffer: seq<char>, m: Machine) {
    && Terminated(buffer)
    && 0 <= m.cursor.position < |buffer|
    && 0 <= m.cursor.depth
    && |m.log.tree| > 0
    && 0 <= m.cursor.tokenIndex <= |m.log.tree|
  }

  /** Rules the grammar records: never the zero rule, never a gap label. */
  predicate Recordable(r: Rule) {
    r != RuleUnknown && !IsGap(r)
  }

  /** Tokens `lo .. hi` are recordable spans inside [begin, end] recorded at
      depth `minDepth` or deeper. */
  ghost predicate Nested(t: seq<Token>, lo: int, hi: int, begin: int, end: int, minDepth: int)
    requires 0 <= lo && hi <= |t|
  {
    forall i :: lo <= i < hi ==>
      && begin <= t[i].begin <= t[i].end <= end
      && t[i].next >= minDepth
      && Recordable(t[i].rule)
  }

  /** Of two recorded tokens, `x` written before `y`: either `x` ends
      where `y` begins or earlier, or `y` is an enclosing rule, finished
      later, whose span covers `x` at a shallower depth. */
  predicate Laminated(x: Token, y: Token) {
    || x.end <= y.begin
    || (y.begin <= x.begin && x.end <= y.end && y.next < x.next)
  }

  /** Every pair of tokens `lo .. hi` is laminated: spans written by one
      successful run never partly overlap. */
  ghost predicate Laminar(t: seq<Token>, lo: int, hi: int)
    requires 0 <= lo && hi <= |t|
  {
    forall i, j :: lo <= i < j < hi ==> Laminated(t[i], t[j])
  }

  /** `after` keeps every token written before `before`'s write index. */
  ghost predicate Keeps(before: Machine, after: Machine) {
    && |after.log.tree| >= |before.log.tree|
    && 0 <= before.cursor.tokenIndex <= |before.log.tree|
    && after.log.tree[..before.cursor.tokenIndex] == before.log.tree[..before.cursor.tokenIndex]
  }

  /** What a piece of a rule body guarantees: the state stays valid, earlier
      tokens are kept, and on success the position only moved forward, the
      depth is back where it was, and every token written lies inside the
      consumed range at this depth or deeper. */
  ghost predicate Progress(buffer: seq<char>, m: Machine, r: Outcome)
    requires Valid(buffer, m)
  {
    && Valid(buffer, r.machine)
    && Keeps(m, r.machine)
    && (r.matched ==>
          var c := r.machine.cursor;
          && c.depth == m.cursor.depth
          && m.cursor.position <= c.position
          && m.cursor.tokenIndex <= c.tokenIndex
          && Nested(r.machine.log.tree, m.cursor.tokenIndex, c.tokenIndex,
                    m.cursor.position, c.position, m.cursor.depth)
          && Laminar(r.machine.log.tree, m.cursor.tokenIndex, c.tokenIndex))
  }

  /** The contract every rule closure keeps. On failure position, write
      index and depth are restored to their entry values. On success the
      depth is back to its entry value, the last token written is the rule's
      own span [entry position, exit position) at the entry depth, and every
      token written before it during the call lies inside that span one
      level deeper or more. */
  ghost predicate Obeys(buffer: seq<char>, m: Machine, r: Outcome, rule: Rule)
    requires Valid(buffer, m)
  {
    && Valid(buffer, r.machine)
    && Keeps(m, r.machine)
    && (!r.matched ==> r.machine.cursor == m.cursor)
    && (r.matched ==>
          var c := r.machine.cursor;
          var t := r.machine.log.tree;
          && c.depth == m.cursor.depth
          && m.cursor.position <= c.position
          && m.cursor.tokenIndex < c.tokenIndex
          && t[c.tokenIndex - 1] == Token(rule, m.cursor.position, c.position, m.cursor.depth)
          && Nested(t, m.cursor.tokenIndex, c.tokenIndex - 1,
                    m.cursor.position, c.position, m.cursor.depth + 1)
          && Laminar(t, m.cursor.tokenIndex, c.tokenIndex))
  }

  /** A rule closure, as a function of the input and the engine state. */
  type RuleFn = (seq<char>, Machine) -> Outcome

  /** `f` behaves like a closure recording `rule` on every valid state. */
  ghost predicate ObeysAlways(f: RuleFn, buffer: seq<char>, rule: Rule) {
    forall m {:trigger ObeysAt(f, buffer, rule, m)} :: ObeysAt(f, buffer, rule, m)
  }

  /** `f` keeps the rule contract when started from `m`. */
  ghost predicate ObeysAt(f: RuleFn, buffer: seq<char>, rule: Rule, m: Machine) {
    Valid(buffer, m) ==> Obeys(buffer, m, f(buffer, m), rule)
  }

  /** Helper: instantiates `ObeysAlways` at one state (a trigger step, not a
      property of the engine). */
  lemma Apply(f: RuleFn, buffer: seq<char>, rule: Rule, m: Machine)
    requires ObeysAlways(f, buffer, rule) && Valid(buffer, m)
    ensures Obeys(buffer, m, f(buffer, m), rule)
  {
    assert ObeysAt(f, buffer, rule, m);
  }

  /** `Init`: append the sentinel unless the input already ends with it, and
      start with an empty narrow log and a zero cursor. */
  function Init(text: seq<char>): (r: (seq<char>, Machine))
    ensures Valid(r.0, r.1)
    ensures r.1.cursor == Cursor(0, 0, 0) && r.1.log == Initial()
    ensures |text| > 0 && text[|text| - 1] == EndSymbol ==> r.0 == text
    ensures !(|text| > 0 && text[|text| - 1] == EndSymbol) ==> r.0 == text + [EndSymbol]
  {
    var buffer := if |text| == 0 || text[|text| - 1] != EndSymbol then text + [EndSymbol] else text;
    (buffer, Machine(Cursor(0, 0, 0), Initial()))
  }

  /** `Reset`: zero the cursor; the log is left as it is. */
  function Reset(m: Machine): (r: Machine)
    ensures r.cursor == Cursor(0, 0, 0) && r.log == m.log
  {
    m.(cursor := Cursor(0, 0, 0))
  }

  /** `add`: grow the log when the write index has run off its end, write
      the span [begin, position) at the current depth into slot
      `tokenIndex`, and advance the write index by one. */
  function AddSpan(m: Machine, rule: Rule, begin: int): (r: Machine)
    requires |m.log.tree| > 0 && 0 <= m.cursor.tokenIndex <= |m.log.tree|
    ensures r.cursor == m.cursor.(tokenIndex := m.cursor.tokenIndex + 1)
    ensures r.cursor.tokenIndex <= |r.log.tree|
    ensures r.log.tree[m.cursor.tokenIndex] == Token(rule, begin, m.cursor.position, m.cursor.depth)
    ensures forall i :: 0 <= i < m.cursor.tokenIndex ==> r.log.tree[i] == m.log.tree[i]
    ensures |r.log.tree| >= |m.log.tree|
    ensures m.cursor.tokenIndex < |m.log.tree| ==> |r.log.tree| == |m.log.tree| && r.log.wide == m.log.wide
    ensures m.cursor.tokenIndex == |m.log.tree| ==> |r.log.tree| == 2 * |m.log.tree| && r.log.wide
  {
    var c := m.cursor;
    var grown := Grow(m.log, c.tokenIndex);
    Machine(c.(tokenIndex := c.tokenIndex + 1), Add(grown, rule, begin, c.position, c.depth, c.tokenIndex))
  }

  /** `matchDot`: consume any character but the sentinel. */
  function MatchDot(buffer: seq<char>, m: Machine): (r: Outcome)
    requires Valid(buffer, m)
    ensures r.matched <==> buffer[m.cursor.position] != EndSymbol
    ensures r.matched ==> r.machine == m.(cursor := m.cursor.(position := m.cursor.position + 1))
    ensures !r.matched ==> r.machine == m
    ensures Valid(buffer, r.machine)
  {
    if buffer[m.cursor.position] != EndSymbol then
      Outcome(true, m.(cursor := m.cursor.(position := m.cursor.position + 1)))
    else Outcome(false, m)
  }

  /** The inlined test `buffer[position] == c` followed by `position++`. */
  function MatchChar(buffer: seq<char>, m: Machine, c: char): (r: Outcome)
    requires Valid(buffer, m) && c != EndSymbol
    ensures r.matched <==> buffer[m.cursor.position] == c
    ensures r.matched ==> r.machine == m.(cursor := m.cursor.(position := m.cursor.position + 1))
    ensures !r.matched ==> r.machine == m
    ensures Valid(buffer, r.machine)
  {
    if buffer[m.cursor.position] == c then
      Outcome(true, m.(cursor := m.cursor.(position := m.cursor.position + 1)))
    else Outcome(false, m)
  }

  /** The inlined class test `lo <= buffer[position] <= hi`. */
  function MatchRange(buffer: seq<char>, m: Machine, lo: char, hi: char): (r: Outcome)
    requires Valid(buffer, m) && !(lo <= EndSymbol <= hi)
    ensures r.matched <==> lo <= buffer[m.cursor.position] <= hi
    ensures r.matched ==> r.machine == m.(cursor := m.cursor.(position := m.cursor.position + 1))
    ensures !r.matched ==> r.machine == m
    ensures Valid(buffer, r.machine)
  {
    if lo <= buffer[m.cursor.position] <= hi then
      Outcome(true, m.(cursor := m.cursor.(position := m.cursor.position + 1)))
    else Outcome(false, m)
  }

  /** `depth++` on entry to a rule body. */
  function Enter(m: Machine): (r: Machine)
    ensures r.cursor.depth == m.cursor.depth + 1
    ensures r.cursor.position == m.cursor.position && r.cursor.tokenIndex == m.cursor.tokenIndex
    ensures r.log == m.log
  {
    m.(cursor := m.cursor.(depth := m.cursor.depth + 1))
  }

  /** The frame of every generated rule closure: snapshot the cursor, run the
      body one level deeper; on success `depth--` and `add(rule, begin)`
      with the entry position as `begin`, on failure restore the snapshot
      (the log keeps what the body wrote). */
  function Close(buffer: seq<char>, m: Machine, body: Outcome, rule: Rule): (r: Outcome)
    requires Valid(buffer, m) && Valid(buffer, Enter(m)) && Recordable(rule)
    requires Progress(buffer, Enter(m), body)
    ensures Obeys(buffer, m, r, rule)
    ensures r.matched == body.matched
    ensures r.matched ==> r.machine.cursor.position == body.machine.cursor.position
    ensures r.matched ==> Keeps(body.machine, r.machine)
  {
    if body.matched then
      var b := body.machine;
      Outcome(true, AddSpan(b.(cursor := b.cursor.(depth := b.cursor.depth - 1)), rule, m.cursor.position))
    else Outcome(false, body.machine.(cursor := m.cursor))
  }

  /** The capture `<...>`: a span recorded one level down without a
      snapshot of its own (a failure is left to the enclosing closure). */
  function Capture(buffer: seq<char>, m: Machine, body: Outcome, rule: Rule): (r: Outcome)
    requires Valid(buffer, m) && Valid(buffer, Enter(m)) && Recordable(rule)
    requires Progress(buffer, Enter(m), body)
    ensures r.matched == body.matched
    ensures !r.matched ==> r == body
    ensures r.matched ==> Obeys(buffer, m, r, rule)
  {
    if body.matched then Close(buffer, m, body, rule) else body
  }

  /** A rule that keeps its contract is a step of progress for its caller. */
  lemma ObeysProgress(buffer: seq<char>, m: Machine, r: Outcome, rule: Rule)
    requires Valid(buffer, m) && Obeys(buffer, m, r, rule) && Recordable(rule)
    ensures Progress(buffer, m, r)
  {
  }

  /** Progress composes: a successful piece followed by another. */
  lemma ProgressThen(buffer: seq<char>, m: Machine, a: Outcome, b: Outcome)
    requires Valid(buffer, m) && Progress(buffer, m, a) && a.matched
    requires Valid(buffer, a.machine) && Progress(buffer, a.machine, b)
    ensures Progress(buffer, m, b)
  {
  }

  /** A failed attempt after a successful prefix: restoring the cursor of
      the prefix keeps it a step of progress, stale tokens and all. */
  lemma ProgressRetain(buffer: seq<char>, m: Machine, cur: Machine, after: Machine)
    requires Valid(buffer, m) && Progress(buffer, m, Outcome(true, cur))
    requires Valid(buffer, after) && Keeps(cur, after) && after.cursor == cur.cursor
    ensures Progress(buffer, m, Outcome(true, after))
  {
    var k := cur.cursor.tokenIndex;
    forall i | m.cursor.tokenIndex <= i < k
      ensures after.log.tree[i] == cur.log.tree[i]
    {
      assert after.log.tree[i] == after.log.tree[..k][i];
    }
    assert after.log.tree[..m.cursor.tokenIndex] == after.log.tree[..k][..m.cursor.tokenIndex];
    assert cur.log.tree[..m.cursor.tokenIndex] == cur.log.tree[..k][..m.cursor.tokenIndex];
  }

  /** Keeping composes while the write index does not move back. */
  lemma KeepsThen(a: Machine, b: Machine, c: Machine)
    requires Keeps(a, b) && Keeps(b, c) && a.cursor.tokenIndex <= b.cursor.tokenIndex
    ensures Keeps(a, c)
  {
  }

  /** The result of `Parse`: whether the start rule matched, and the state
      after it (on success the log is trimmed to the tokens written). */
  datatype Parsed = Parsed(ok: bool, machine: Machine)

  /** `Parse`: run the start rule; on success trim the log to `tokenIndex`,
      on failure return the untrimmed log for the error report. */
  function Parse(buffer: seq<char>, m: Machine, start: RuleFn, rule: Rule): (r: Parsed)
    requires Valid(buffer, m) && ObeysAlways(start, buffer, rule)
    ensures r.ok ==> |r.machine.log.tree| == r.machine.cursor.tokenIndex
    ensures r.ok ==>
      var c := r.machine.cursor;
      && c.tokenIndex > m.cursor.tokenIndex
      && r.machine.log.tree[c.tokenIndex - 1] == Token(rule, m.cursor.position, c.position, m.cursor.depth)
    ensures !r.ok ==> r.machine.cursor == m.cursor
    ensures !r.ok ==> Keeps(m, r.machine)
    ensures r.ok ==> forall i :: 0 <= i < m.cursor.tokenIndex ==> r.machine.log.tree[i] == m.log.tree[i]
  {
    var out := start(buffer, m);
    Apply(start, buffer, rule, m);
    if out.matched then
      var c := out.machine.cursor;
      Parsed(true, out.machine.(log := Trim(out.machine.log, c.tokenIndex)))
    else Parsed(false, out.machine)
  }

  /** The result of `Parse` is what the start rule left: its whole state on
      failure, its cursor and the tokens below its write index on success. */
  lemma ParseIsStartRule(buffer: seq<char>, m: Machine, start: RuleFn, rule: Rule)
    requires Valid(buffer, m) && ObeysAlways(start, buffer, rule)
    ensures
      var r, out := Parse(buffer, m, start, rule), start(buffer, m);
      && r.ok == out.matched
      && (!r.ok ==> r.machine == out.machine)
      && (r.ok ==>
            && r.machine.cursor == out.machine.cursor
            && r.machine.cursor.tokenIndex <= |out.machine.log.tree|
            && r.machine.log.tree == out.machine.log.tree[..r.machine.cursor.tokenIndex])
  {
    Apply(start, buffer, rule, m);
  }

  /** After a successful parse from the reset state, the trimmed log is a
      tree under its last token: that token spans everything consumed at
      depth 0, and once `Order` has numbered tokens by index it is the
      parent of every other token; any two of its tokens are laminated. */
  lemma ParsedLogIsTree(buffer: seq<char>, m: Machine, start: RuleFn, rule: Rule)
    requires Valid(buffer, m) && m.cursor == Cursor(0, 0, 0)
    requires ObeysAlways(start, buffer, rule) && Recordable(rule)
    requires Parse(buffer, m, start, rule).ok
    ensures
      var t := Parse(buffer, m, start, rule).machine.log.tree;
      var n := |t|;
      && n >= 1
      && t[n - 1] == Token(rule, 0, Parse(buffer, m, start, rule).machine.cursor.position, 0)
      && (forall i :: 0 <= i < n ==> Recordable(t[i].rule) && 0 <= t[i].next)
      && (forall i :: 0 <= i < n - 1 ==> IsParentOf(t[n - 1].(next := n - 1), t[i].(next := i)))
      && (forall i, j :: 0 <= i < j < n ==> Laminated(t[i], t[j]))
  {
    var out := start(buffer, m);
    Apply(start, buffer, rule, m);
    var t := Parse(buffer, m, start, rule).machine.log.tree;
    assert forall i :: 0 <= i < |t| ==> t[i] == out.machine.log.tree[i];
  }
}

=== FILE: ordering.dfy ===
/** `Order` and `Error`: the depth-bucketed view of the span log and the
    deepest-first pick of failed paths read from it. */
module Ordering {
  import opened Wrappers
  import opened Tokens
  import opened TokenLog

  /** Index of the first `RuleUnknown` token, where `Order` cuts the tree. */
  function LiveLength(tree: seq<Token>): (k: nat)
    ensures k <= |tree|
    ensures forall i :: 0 <= i < k ==> tree[i].rule != RuleUnknown
    ensures k < |tree| ==> tree[k].rule == RuleUnknown
  {
    if |tree| == 0 || tree[0].rule == RuleUnknown then 0
    else 1 + LiveLength(tree[1..])
  }

  /** The recorded depths `Order` can bucket: negative depths index out of
      range, and the depth counters have capacity `math.MaxInt16`. */
  predicate DepthsFit(live: seq<Token>) {
    forall i :: 0 <= i < |live| ==> 0 <= live[i].next < MaxInt16
  }

  /** The deepest recorded depth, 0 for an empty log. */
  function Height(live: seq<Token>): (h: int)
    ensures h >= 0
    ensures forall i :: 0 <= i < |live| ==> live[i].next <= h
  {
    if |live| == 0 then 0
    else
      var h0 := Height(live[..|live| - 1]);
      var d := live[|live| - 1].next;
      if d > h0 then d else h0
  }

  /** `Height` is the maximum: unless it is 0, some token was recorded at
      exactly that depth. */
  lemma {:induction false} HeightAttained(live: seq<Token>)
    ensures Height(live) == 0 || exists i :: 0 <= i < |live| && live[i].next == Height(live)
  {
    if |live| > 0 {
      var init := live[..|live| - 1];
      HeightAttained(init);
      if Height(live) != live[|live| - 1].next && Height(live) != 0 {
        var i :| 0 <= i < |init| && init[i].next == Height(init);
        assert live[i] == init[i];
      }
    }
  }

  /** The tokens recorded at depth `d`, in recording order, each with `next`
      replaced by its index in the log. */
  function Bucket(live: seq<Token>, d: int): (b: seq<Token>)
    // every entry is a token of depth d, renumbered with its own index
    ensures forall k :: 0 <= k < |b| ==>
      0 <= b[k].next < |live| && live[b[k].next] == b[k].(next := d)
    // in recording order
    ensures forall k, l :: 0 <= k < l < |b| ==> b[k].next < b[l].next
    // and none is missing
    ensures forall i :: 0 <= i < |live| && live[i].next == d ==> live[i].(next := i) in b
  {
    if |live| == 0 then []
    else
      var last := |live| - 1;
      var init := Bucket(live[..last], d);
      if live[last].next == d then init + [live[last].(next := last)] else init
  }

  /** The ordered view: one bucket per depth 0 .. Height + 1, each followed by
      one zero slot (the pool `Order` slices is zero-initialised and one slot
      longer than each depth's count). */
  function Buckets(live: seq<Token>): (o: seq<seq<Token>>)
    ensures |o| == Height(live) + 2
  {
    seq(Height(live) + 2, d requires 0 <= d < Height(live) + 2 => Bucket(live, d) + [Zero])
  }

  /** The cache either is absent or holds the view of the (already cut) tree. */
  predicate Coherent(log: Log) {
    log.ordered.None? ||
    (LiveLength(log.tree) == |log.tree| && log.ordered.value == Buckets(log.tree))
  }

  /** What `Order` demands of the tree it has to bucket. */
  predicate CanOrder(log: Log) {
    log.ordered.Some? || DepthsFit(log.tree[..LiveLength(log.tree)])
  }

  /** `Order`: returns the cached view when there is one; otherwise cuts the
      tree at its first `RuleUnknown` token, buckets it by recorded depth and
      caches the result. */
  function Order(log: Log): (r: (Log, seq<seq<Token>>))
    requires CanOrder(log)
    ensures log.ordered.Some? ==> r == (log, log.ordered.value)
    ensures log.ordered.None? ==>
      && r.0.tree == log.tree[..LiveLength(log.tree)]
      && r.0.wide == log.wide
      && r.0.ordered == Some(r.1)
    ensures r.0.ordered == Some(r.1)
    ensures Coherent(log) ==> Coherent(r.0)
  {
    if log.ordered.Some? then (log, log.ordered.value)
    else
      var live := log.tree[..LiveLength(log.tree)];
      assert LiveLength(live) == |live| by { LiveLengthOfLive(log.tree); }
      var ordered := Buckets(live);
      (log.(tree := live, ordered := Some(ordered)), ordered)
  }

  lemma {:induction false} LiveLengthOfLive(tree: seq<Token>)
    ensures LiveLength(tree[..LiveLength(tree)]) == LiveLength(tree)
  {
    if |tree| == 0 || tree[0].rule == RuleUnknown {
    } else {
      LiveLengthOfLive(tree[1..]);
      assert tree[..LiveLength(tree)][1..] == tree[1..][..LiveLength(tree[1..])];
    }
  }

  /** The shape of the view `Order` builds from a live prefix. */
  predicate IsViewOf(o: seq<seq<Token>>, live: seq<Token>) {
    && |o| == Height(live) + 2
    && (forall d :: 0 <= d < |o| ==> |o[d]| >= 1 && o[d][|o[d]| - 1] == Zero)
    && (forall d :: 0 <= d < |o| ==> HoldsDepth(o[d][..|o[d]| - 1], live, d))
    && (forall i :: 0 <= i < |live| ==>
          0 <= live[i].next < |o| && live[i].(next := i) in o[live[i].next][..|o[live[i].next]| - 1])
  }

  /** `b` lists live tokens of depth `d`, renumbered with their index, in
      strictly increasing recording order. */
  predicate HoldsDepth(b: seq<Token>, live: seq<Token>, d: int) {
    && (forall k :: 0 <= k < |b| ==> 0 <= b[k].next < |live| && live[b[k].next] == b[k].(next := d))
    && (forall k, l :: 0 <= k < l < |b| ==> b[k].next < b[l].next)
  }

  lemma BucketOfView(live: seq<Token>, d: int)
    requires 0 <= d < Height(live) + 2
    ensures |Buckets(live)[d]| == |Bucket(live, d)| + 1
    ensures Buckets(live)[d][..|Buckets(live)[d]| - 1] == Bucket(live, d)
    ensures Buckets(live)[d][|Buckets(live)[d]| - 1] == Zero
  {
    var b := Buckets(live)[d];
    assert b == Bucket(live, d) + [Zero];
    assert b[..|b| - 1] == Bucket(live, d);
  }

  /** Bucket `d` of the view holds exactly the live tokens of depth `d`, in
      recording order and renumbered with their index, then one zero slot;
      there are `Height + 2` buckets. */
  lemma BucketsAreView(live: seq<Token>)
    requires DepthsFit(live)
    ensures IsViewOf(Buckets(live), live)
  {
    BucketsHoldDepths(live);
    BucketsPlaceAll(live);
  }

  /** Each bucket: its tokens of one depth, then the zero slot. */
  lemma BucketsHoldDepths(live: seq<Token>)
    ensures forall d :: 0 <= d < |Buckets(live)| ==>
      var b := Buckets(live)[d];
      |b| >= 1 && b[|b| - 1] == Zero && HoldsDepth(b[..|b| - 1], live, d)
  {
    var o := Buckets(live);
    forall d | 0 <= d < |o|
      ensures |o[d]| >= 1 && o[d][|o[d]| - 1] == Zero
      ensures HoldsDepth(o[d][..|o[d]| - 1], live, d)
    {
      BucketOfView(live, d);
    }
  }

  /** Every live token appears, renumbered, in the bucket of its depth. */
  lemma BucketsPlaceAll(live: seq<Token>)
    requires DepthsFit(live)
    ensures forall i :: 0 <= i < |live| ==>
      var b := Buckets(live)[live[i].next];
      0 <= live[i].next < |Buckets(live)| && live[i].(next := i) in b[..|b| - 1]
  {
    var o := Buckets(live);
    forall i | 0 <= i < |live|
      ensures 0 <= live[i].next < |o| && live[i].(next := i) in o[live[i].next][..|o[live[i].next]| - 1]
    {
      BucketOfView(live, live[i].next);
    }
  }

  /** Whatever the cache state, a coherent log orders to the view of its
      live prefix, and that prefix is what the log keeps. */
  lemma OrderedView(log: Log)
    requires DepthsFit(log.tree[..LiveLength(log.tree)]) && Coherent(log)
    ensures Order(log).0.tree == log.tree[..LiveLength(log.tree)]
    ensures IsViewOf(Order(log).1, log.tree[..LiveLength(log.tree)])
  {
    var live := log.tree[..LiveLength(log.tree)];
    if log.ordered.Some? {
      assert live == log.tree;
    }
    BucketsAreView(live);
  }

  /** A second `Order` returns the cached view and leaves the log alone. */
  lemma OrderCached(log: Log)
    requires CanOrder(log)
    ensures Order(Order(log).0) == Order(log)
  {
  }

  /** `Error`: one token per bucket, deepest bucket first; entry `i` is the
      last recorded token of bucket `len - 1 - i` (the slot before its trailing
      zero), or a zero token when that bucket holds none. */
  function Error(log: Log): (r: (Log, seq<Token>))
    requires CanOrder(log)
    ensures r.0 == Order(log).0
    ensures |r.1| == |Order(log).1|
  {
    var (l, o) := Order(log);
    (l, seq(|o|, i requires 0 <= i < |o| =>
      var b := o[|o| - 1 - i];
      if |b| > 1 then b[|b| - 2] else Zero))
  }

  /** `t` is the last token recorded at depth `d` (renumbered with its
      index), or the zero token when nothing was recorded at that depth. */
  predicate LastRecorded(t: Token, live: seq<Token>, d: int) {
    if exists k :: 0 <= k < |live| && live[k].next == d then
      && 0 <= t.next < |live|
      && live[t.next] == t.(next := d)
      && (forall k :: t.next < k < |live| ==> live[k].next != d)
    else t == Zero
  }

  /** The last entry of a depth-`d` listing that misses no token of that
      depth is the last token recorded at `d`. */
  lemma LastOfBucket(b: seq<Token>, live: seq<Token>, d: int)
    requires HoldsDepth(b, live, d)
    requires forall i :: 0 <= i < |live| && live[i].next == d ==> live[i].(next := i) in b
    ensures LastRecorded(if |b| > 0 then b[|b| - 1] else Zero, live, d)
  {
    if |b| > 0 {
      var t := b[|b| - 1];
      forall k | t.next < k < |live|
        ensures live[k].next != d
      {
      }
    }
  }

  /** The slot before a bucket's trailing zero is the last token recorded
      at that bucket's depth. */
  lemma ViewLast(o: seq<seq<Token>>, live: seq<Token>, d: int)
    requires IsViewOf(o, live) && 0 <= d < |o|
    ensures LastRecorded(if |o[d]| > 1 then o[d][|o[d]| - 2] else Zero, live, d)
  {
    var recorded := o[d][..|o[d]| - 1];
    assert |o[d]| > 1 ==> o[d][|o[d]| - 2] == recorded[|recorded| - 1];
    forall j | 0 <= j < |live| && live[j].next == d
      ensures live[j].(next := j) in recorded
    {
    }
    LastOfBucket(recorded, live, d);
  }

  lemma OrderedLast(log: Log, d: int)
    requires DepthsFit(log.tree[..LiveLength(log.tree)]) && Coherent(log)
    requires 0 <= d < |Order(log).1|
    ensures var b := Order(log).1[d];
      LastRecorded(if |b| > 1 then b[|b| - 2] else Zero, log.tree[..LiveLength(log.tree)], d)
  {
    OrderedView(log);
    ViewLast(Order(log).1, log.tree[..LiveLength(log.tree)], d);
  }

  /** Entry `i` of `Error`'s answer for a coherent log. */
  lemma ErrorEntry(log: Log, i: int)
    requires DepthsFit(log.tree[..LiveLength(log.tree)]) && Coherent(log)
    requires 0 <= i < |Error(log).1|
    ensures LastRecorded(Error(log).1[i], log.tree[..LiveLength(log.tree)], |Error(log).1| - 1 - i)
  {
    var o := Order(log).1;
    var d := |o| - 1 - i;
    assert Error(log).1[i] == if |o[d]| > 1 then o[d][|o[d]| - 2] else Zero;
    OrderedLast(log, d);
  }

  lemma OrderedHeight(log: Log)
    requires DepthsFit(log.tree[..LiveLength(log.tree)]) && Coherent(log)
    ensures |Order(log).1| == Height(log.tree[..LiveLength(log.tree)]) + 2
  {
    OrderedView(log);
  }

  /** `Error` reports, deepest depth first, the last token recorded at each
      depth; the first entry (the extra empty bucket) is always zero. */
  lemma ErrorDeepestFirst(log: Log)
    requires DepthsFit(log.tree[..LiveLength(log.tree)]) && Coherent(log)
    ensures
      var live := log.tree[..LiveLength(log.tree)];
      var e := Error(log).1;
      && |e| == Height(live) + 2
      && e[0] == Zero
      && (forall i :: 0 <= i < |e| ==> LastRecorded(e[i], live, |e| - 1 - i))
  {
    var live := log.tree[..LiveLength(log.tree)];
    OrderedHeight(log);
    var e := Error(log).1;
    forall i | 0 <= i < |e|
      ensures LastRecorded(e[i], live, |e| - 1 - i)
    {
      ErrorEntry(log, i);
    }
    assert !exists k :: 0 <= k < |live| && live[k].next == |e| - 1;
  }
}

=== FILE: positions.dfy ===
/** `translatePositions`: byte offsets to (line, symbol) pairs, resolved in
    one left-to-right scan of the buffer. One character per index is
    assumed (the Go loop ranges over runes but compares byte offsets). */
module Positions {

  datatype TextPosition = TextPosition(line: int, symbol: int)

  /** Effect of consuming one character on the running position. */
  function Advance(p: TextPosition, c: char): TextPosition {
    if c == '\n' then TextPosition(p.line + 1, 0) else TextPosition(p.line, p.symbol + 1)
  }

  /** The running position after consuming all of `s`, starting from line 1,
      symbol 0. */
  function After(s: seq<char>): TextPosition
  {
    if |s| == 0 then TextPosition(1, 0)
    else Advance(After(s[..|s| - 1]), s[|s| - 1])
  }

  function CountNewlines(s: seq<char>): nat {
    if |s| == 0 then 0 else CountNewlines(s[..|s| - 1]) + (if s[|s| - 1] == '\n' then 1 else 0)
  }

  /** Reference reading of `After`: the line is one plus the number of line
      breaks consumed, the symbol the number of characters consumed since the
      last line break (or since the start). */
  lemma {:induction false} AfterCounts(s: seq<char>)
    ensures After(s).line == 1 + CountNewlines(s)
    ensures 0 <= After(s).symbol <= |s|
    ensures forall k :: |s| - After(s).symbol <= k < |s| ==> s[k] != '\n'
    ensures After(s).symbol < |s| ==> s[|s| - 1 - After(s).symbol] == '\n'
  {
    if |s| > 0 {
      var init := s[..|s| - 1];
      AfterCounts(init);
      assert forall k :: 0 <= k < |init| ==> s[k] == init[k];
    }
  }

  predicate Sorted(positions: seq<int>) {
    forall a, b :: 0 <= a < b < |positions| ==> positions[a] <= positions[b]
  }

  /** The map the scan is meant to build: every requested position that is
      an index of the buffer maps to the position after consuming the
      character at that index. A negative first request is never matched,
      and since the scan waits for it, nothing at all is resolved then. */
  function Expected(buffer: seq<char>, positions: seq<int>): map<int, TextPosition>
    requires |positions| > 0
  {
    map p | p in positions && 0 <= p < |buffer| && positions[0] >= 0 :: After(buffer[..p + 1])
  }

  /** The requests in `ps` resolved one after the other. */
  function Resolve(buffer: seq<char>, ps: seq<int>): map<int, TextPosition> {
    if |ps| == 0 then map[]
    else
      var p := ps[|ps| - 1];
      var m := Resolve(buffer, ps[..|ps| - 1]);
      if 0 <= p < |buffer| then m[p := After(buffer[..p + 1])] else m
  }

  lemma {:induction false} ResolveIsComprehension(buffer: seq<char>, ps: seq<int>)
    ensures Resolve(buffer, ps) == map p | p in ps && 0 <= p < |buffer| :: After(buffer[..p + 1])
  {
    if |ps| > 0 {
      var init := ps[..|ps| - 1];
      ResolveIsComprehension(buffer, init);
      assert ps == init + [ps[|ps| - 1]];
    }
  }

  /** Requests beyond the buffer add nothing. */
  lemma {:induction false} ResolveBeyond(buffer: seq<char>, ps: seq<int>, j: int)
    requires 0 <= j <= |ps|
    requires forall k :: j <= k < |ps| ==> ps[k] >= |buffer|
    ensures Resolve(buffer, ps[..j]) == Resolve(buffer, ps)
  {
    if j < |ps| {
      ResolveBeyond(buffer, ps[..|ps| - 1], j);
      assert ps[..|ps| - 1][..j] == ps[..j];
    } else {
      assert ps[..j] == ps;
    }
  }

  /** `translatePositions`. The caller sorts `positions` (the Go code calls
      `sort.Ints`); reading `positions[0]` inside the loop needs at least one
      position whenever the buffer is not empty. */
  method TranslatePositions(buffer: seq<char>, positions: seq<int>)
    returns (translations: map<int, TextPosition>)
    requires Sorted(positions)
    requires |buffer| > 0 ==> |positions| > 0
    ensures |positions| > 0 ==> translations == Expected(buffer, positions)
    ensures |positions| == 0 ==> translations == map[]
  {
    translations := map[];
    var j, line, symbol := 0, 1, 0;
    var i := 0;
    var done := false;
    while i < |buffer| && !done
      invariant 0 <= i <= |buffer|
      invariant 0 <= j <= |positions|
      invariant done <==> j == |positions| && i > 0
      invariant i < |buffer| ==> j < |positions| || done
      invariant TextPosition(line, symbol) == After(buffer[..i])
      invariant positions != [] && positions[0] < 0 ==> j == 0
      invariant positions != [] && positions[0] >= 0 ==>
        && (forall k :: 0 <= k < j ==> positions[k] < i)
        && (j < |positions| ==> positions[j] >= i)
      invariant translations == Resolve(buffer, positions[..j])
      decreases |buffer| - i
    {
      var c := buffer[i];
      if c == '\n' {
        line, symbol := line + 1, 0;
      } else {
        symbol := symbol + 1;
      }
      assert buffer[..i + 1][..i] == buffer[..i];
      if i == positions[j] {
        translations := translations[positions[j] := TextPosition(line, symbol)];
        assert positions[..j + 1][..j] == positions[..j];
        var j0 := j + 1;
        j := SkipRepeats(positions, i, j0);
        ResolveRepeats(buffer, positions, i, j0, j);
        if j == |positions| {
          done := true;
        }
      }
      i := i + 1;
    }
    if |positions| > 0 {
      ExpectedIsResolved(buffer, positions, j);
    }
  }

  /** The inner loop of the scan: step past the further copies of the
      request just resolved. */
  method SkipRepeats(positions: seq<int>, i: int, j0: int) returns (j: int)
    requires Sorted(positions) && 0 < j0 <= |positions| && positions[j0 - 1] == i
    ensures j0 <= j <= |positions|
    ensures forall k :: j0 - 1 <= k < j ==> positions[k] == i
    ensures j < |positions| ==> positions[j] > i
  {
    j := j0;
    while j < |positions| && i == positions[j]
      invariant j0 <= j <= |positions|
      invariant forall k :: j0 - 1 <= k < j ==> positions[k] == i
      decreases |positions| - j
    {
      j := j + 1;
    }
  }

  /** Resolving more copies of an already resolved request changes
      nothing. */
  lemma {:induction false} ResolveRepeats(buffer: seq<char>, ps: seq<int>, i: int, j0: int, j: int)
    requires 0 < j0 <= j <= |ps|
    requires forall k :: j0 - 1 <= k < j ==> ps[k] == i
    ensures Resolve(buffer, ps[..j]) == Resolve(buffer, ps[..j0])
    decreases j
  {
    if j > j0 {
      ResolveRepeats(buffer, ps, i, j0, j - 1);
      assert ps[..j][..j - 1] == ps[..j - 1];
      assert ps[..j0][..j0 - 1] == ps[..j0 - 1];
    }
  }

  /** Where the scan stops, what it resolved is what was expected. */
  lemma ExpectedIsResolved(buffer: seq<char>, positions: seq<int>, j: int)
    requires Sorted(positions) && 0 < |positions| && 0 <= j <= |positions|
    requires positions[0] < 0 ==> j == 0
    requires positions[0] >= 0 && j < |positions| ==> positions[j] >= |buffer|
    ensures Expected(buffer, positions) == Resolve(buffer, positions[..j])
  {
    if positions[0] >= 0 {
      ResolveBeyond(buffer, positions, j);
      ResolveIsComprehension(buffer, positions);
    } else {
      assert Expected(buffer, positions) == map[];
    }
  }
}

=== FILE: preorder.dfy ===
/** `PreOrder`: the depth-first re-walk of the ordered view that rebuilds
    the parse tree from interval containment alone, emitting synthetic gap
    spans (`Pre_`, `_In_`, `_Suf`) for input no recorded span covers.

    The Go code runs the walk in a goroutine and streams states over a
    channel; here it is an eager function returning the whole sequence.
    A Go index-out-of-range panic ends the walk with `None`. */
module PreOrder {
  import opened Wrappers
  import opened Tokens
  import opened TokenLog
  import opened Ordering

  /** One emitted state: the token, the depth it is shown at, and whether it
      is shown as a leaf. The Go code stores the depth in the token's `next`
      field; the model keeps the token (a recorded token carries its log
      index in `next`, a gap token carries 0) and the depth apart. */
  datatype Visit = Visit(token: Token, depth: int, leaf: bool)

  /** `o[d][i]`, or `None` where Go would panic. */
  function At(o: seq<seq<Token>>, d: int, i: int): (r: Option<Token>)
    ensures r.Some? <==> 0 <= d < |o| && 0 <= i < |o[d]|
    ensures r.Some? ==> r.value == o[d][i]
  {
    if 0 <= d < |o| && 0 <= i < |o[d]| then Some(o[d][i]) else None
  }

  /** The per-depth read cursors stay inside their buckets. */
  predicate CursorsInRange(o: seq<seq<Token>>, depths: seq<int>) {
    |depths| == |o| && forall d :: 0 <= d < |o| ==> 0 <= depths[d] <= |o[d]|
  }

  /** The walk's loop invariant at the head of the outer loop: `b` is the
      next unread token of the current depth and `a` the token most recently
      read one level up (its parent candidate). */
  predicate WalkInv(o: seq<seq<Token>>, depth: int, depths: seq<int>, a: Token, b: Token) {
    && CursorsInRange(o, depths)
    && 1 <= depth < |o|
    && depths[depth] < |o[depth]| && b == o[depth][depths[depth]]
    && depths[depth - 1] >= 1 && a == o[depth - 1][depths[depth - 1] - 1]
  }

  /** Number of slots the walk has not read yet. */
  function Unread(o: seq<seq<Token>>, depths: seq<int>): nat
    requires CursorsInRange(o, depths)
  {
    if |o| == 0 then 0
    else
      var n := |o| - 1;
      assert CursorsInRange(o[..n], depths[..n]);
      Unread(o[..n], depths[..n]) + (|o[n]| - depths[n])
  }

  lemma {:induction false} UnreadStep(o: seq<seq<Token>>, depths: seq<int>, d: int)
    requires CursorsInRange(o, depths) && 0 <= d < |o| && depths[d] < |o[d]|
    ensures CursorsInRange(o, depths[d := depths[d] + 1])
    ensures Unread(o, depths[d := depths[d] + 1]) + 1 == Unread(o, depths)
  {
    var depths' := depths[d := depths[d] + 1];
    var n := |o| - 1;
    if d < n {
      assert depths'[..n] == depths[..n][d := depths[d] + 1];
      UnreadStep(o[..n], depths[..n], d);
    } else {
      assert depths'[..n] == depths[..n];
    }
  }

  /** A synthetic gap token spans a non-empty range; `Pre_` runs forward. */
  predicate GapWellFormed(t: Token) {
    && IsGap(t.rule) && t.next == 0 && t.begin != t.end
    && (t.rule == RulePre ==> t.begin < t.end)
  }

  /** Every emitted state either shows a token of the view at that token's
      own bucket, or is a well-formed gap shown as a leaf. */
  predicate Emitted(o: seq<seq<Token>>, v: Visit) {
    || (0 <= v.depth < |o| && v.token in o[v.depth])
    || (GapWellFormed(v.token) && v.leaf)
  }

  /** The gap written before `b` (first inner loop of the walk): `_In_`
      from the end of the previous sibling `c` when `c` is the latest child
      claimed by `a` and not by the sibling before `a`; otherwise `Pre_`
      from the start of `a`. Empty gaps are not written. */
  function Lead(o: seq<seq<Token>>, depth: int, depths: seq<int>, a: Token, b: Token): (r: seq<Visit>)
    requires WalkInv(o, depth, depths, a, b)
    ensures |r| <= 1
    ensures forall v :: v in r ==> v.depth == depth && v.leaf && GapWellFormed(v.token)
    ensures forall v :: v in r && v.token.rule == RuleIn ==>
      depths[depth] > 0 && v.token == Token(RuleIn, o[depth][depths[depth] - 1].end, b.begin, 0)
    ensures forall v :: v in r && v.token.rule == RulePre ==> v.token == Token(RulePre, a.begin, b.begin, 0)
  {
    var i, j := depths[depth], depths[depth - 1];
    if i > 0 && IsParentOf(a, o[depth][i - 1]) && (j < 2 || !IsParentOf(o[depth - 1][j - 2], o[depth][i - 1])) then
      var c := o[depth][i - 1];
      if c.end != b.begin then [Visit(Token(RuleIn, c.end, b.begin, 0), depth, true)] else []
    else if a.begin < b.begin then [Visit(Token(RulePre, a.begin, b.begin, 0), depth, true)]
    else []
  }

  /** How the inner (climbing) loop of the walk ends: back at the head of
      the outer loop with a new `b`, at depth 0, or in a panic. */
  datatype Climb =
    | Resume(depth: int, a: Token, b: Token, out: seq<Visit>)
    | Finished(out: seq<Visit>)
    | Panicked

  /** Whether climbing out of depth `d` writes a `_Suf` gap: the token `b`
      finished at depth `d` (the one its cursor has just passed) belongs to
      the token `a` read last one level up (at the level the climb starts
      from, the walk takes this for granted) and stops short of `a.end`. */
  predicate SufDue(o: seq<seq<Token>>, depths: seq<int>, d: int, depth: int, parent: bool)
    requires CursorsInRange(o, depths) && 1 <= d < |o|
  {
    && depths[d - 1] >= 1 && depths[d] >= 1
    && var a, b := o[d - 1][depths[d - 1] - 1], o[d][depths[d] - 1];
       (if d == depth then parent else IsParentOf(a, b)) && b.end != a.end
  }

  /** One level down the climb, whether a gap is due below does not depend
      on which level the climb started from. */
  lemma SufDueBelow(o: seq<seq<Token>>, depths: seq<int>, depth: int, parent: bool)
    requires CursorsInRange(o, depths) && 2 <= depth < |o| && depths[depth - 1] >= 1 && depths[depth - 2] >= 1
    ensures forall d :: 1 <= d < depth ==>
      SufDue(o, depths, d, depth, parent) ==
      SufDue(o, depths, d, depth - 1, IsParentOf(o[depth - 2][depths[depth - 2] - 1], o[depth - 1][depths[depth - 1] - 1]))
  {
  }

  /** `v` is the `_Suf` gap of depth `v.depth`: from the end of the token
      finished there to the end of the token read last one level up. */
  predicate IsSufAt(o: seq<seq<Token>>, depths: seq<int>, v: Visit)
    requires CursorsInRange(o, depths) && 1 <= v.depth < |o|
  {
    && depths[v.depth - 1] >= 1 && depths[v.depth] >= 1
    && v.token == Token(RuleSuf, o[v.depth][depths[v.depth] - 1].end, o[v.depth - 1][depths[v.depth - 1] - 1].end, 0)
  }

  /** The inner loop after a leaf: `c` is the next unread token at `depth`,
      `b` the one just finished. When `c` is another child of `a` the walk
      resumes with it; otherwise a `_Suf` gap closes `a` (when `b` was its
      child and stopped short of `a.end`) and the walk climbs one level. */
  function Ascend(o: seq<seq<Token>>, depth: int, depths: seq<int>, a: Token, b: Token, c: Token, parent: bool): (r: Climb)
    requires CursorsInRange(o, depths) && 1 <= depth < |o|
    requires depths[depth] < |o[depth]| && c == o[depth][depths[depth]]
    requires depths[depth - 1] >= 1 && a == o[depth - 1][depths[depth - 1] - 1]
    ensures r.Resume? ==> 1 <= r.depth <= depth && WalkInv(o, r.depth, depths, r.a, r.b)
    ensures r.Resume? ==> r.b.rule != RuleUnknown && IsParentOf(r.a, r.b)
    ensures !r.Panicked? ==> forall v :: v in r.out ==>
      1 <= v.depth <= depth && v.leaf && GapWellFormed(v.token) && v.token.rule == RuleSuf
    decreases depth
  {
    if c.rule != RuleUnknown && IsParentOf(a, c) then Resume(depth, a, c, [])
    else
      var suf := SufGap(depth, a, b, parent);
      var d := depth - 1;
      if d > 0 then
        match (At(o, d - 1, depths[d - 1] - 1), At(o, d, depths[d]))
        case (Some(a2), Some(c2)) =>
          (match Ascend(o, d, depths, a2, a, c2, IsParentOf(a2, a))
           case Resume(d3, a3, b3, out) => Resume(d3, a3, b3, suf + out)
           case Finished(out) => Finished(suf + out)
           case Panicked => Panicked)
        case _ => Panicked
      else Finished(suf)
  }

  /** The gap a climb writes when it leaves `depth`, if any. */
  function SufGap(depth: int, a: Token, b: Token, parent: bool): seq<Visit> {
    if parent && b.end != a.end then [Visit(Token(RuleSuf, b.end, a.end, 0), depth, true)] else []
  }

  /** One level of the climb: when `c` does not continue `a`, the climb
      writes its gap for `depth` and carries on from one level up exactly
      as a climb started there with `a` just finished. */
  lemma AscendStep(o: seq<seq<Token>>, depth: int, depths: seq<int>, a: Token, b: Token, c: Token, parent: bool)
    requires CursorsInRange(o, depths) && 2 <= depth < |o|
    requires depths[depth] < |o[depth]| && c == o[depth][depths[depth]]
    requires depths[depth - 1] >= 1 && a == o[depth - 1][depths[depth - 1] - 1]
    requires !(c.rule != RuleUnknown && IsParentOf(a, c))
    requires !Ascend(o, depth, depths, a, b, c, parent).Panicked?
    ensures depths[depth - 2] >= 1 && depths[depth - 1] < |o[depth - 1]|
    ensures
      var whole := Ascend(o, depth, depths, a, b, c, parent);
      var a2 := o[depth - 2][depths[depth - 2] - 1];
      var r := Ascend(o, depth - 1, depths, a2, a, o[depth - 1][depths[depth - 1]], IsParentOf(a2, a));
      && !r.Panicked?
      && whole.out == SufGap(depth, a, b, parent) + r.out
      && whole.Resume? == r.Resume?
      && (whole.Resume? ==> whole.depth == r.depth)
  {
  }

  /** The `_Suf` gaps of a climb started from the token `b` just finished
      at `depth`: every gap written closes a parent whose last child stopped
      short of it, and spans from that child's end to the parent's end. */
  lemma {:induction false} AscendGapsSound(o: seq<seq<Token>>, depth: int, depths: seq<int>, a: Token, b: Token, c: Token, parent: bool)
    requires CursorsInRange(o, depths) && 1 <= depth < |o|
    requires depths[depth] < |o[depth]| && c == o[depth][depths[depth]]
    requires depths[depth] >= 1 && b == o[depth][depths[depth] - 1]
    requires depths[depth - 1] >= 1 && a == o[depth - 1][depths[depth - 1] - 1]
    ensures
      var r := Ascend(o, depth, depths, a, b, c, parent);
      !r.Panicked? ==> forall v :: v in r.out ==>
        1 <= v.depth <= depth && SufDue(o, depths, v.depth, depth, parent) && IsSufAt(o, depths, v)
    decreases depth
  {
    var whole := Ascend(o, depth, depths, a, b, c, parent);
    if depth == 1 {
      AscendGapsSoundTop(o, depths, a, b, c, parent);
    } else if !(c.rule != RuleUnknown && IsParentOf(a, c)) && !whole.Panicked? {
      AscendStep(o, depth, depths, a, b, c, parent);
      var a2 := o[depth - 2][depths[depth - 2] - 1];
      var c2 := o[depth - 1][depths[depth - 1]];
      AscendGapsSound(o, depth - 1, depths, a2, a, c2, IsParentOf(a2, a));
      SufDueBelow(o, depths, depth, parent);
      GapsMeet(o, depths, depth, parent, a, b, Ascend(o, depth - 1, depths, a2, a, c2, IsParentOf(a2, a)).out);
    }
  }

  /** The climb out of depth 1 writes at most the gap due there. */
  lemma AscendGapsSoundTop(o: seq<seq<Token>>, depths: seq<int>, a: Token, b: Token, c: Token, parent: bool)
    requires CursorsInRange(o, depths) && 1 < |o|
    requires depths[1] < |o[1]| && c == o[1][depths[1]]
    requires depths[1] >= 1 && b == o[1][depths[1] - 1]
    requires depths[0] >= 1 && a == o[0][depths[0] - 1]
    ensures
      var r := Ascend(o, 1, depths, a, b, c, parent);
      !r.Panicked? ==> forall v :: v in r.out ==> v.depth == 1 && SufDue(o, depths, 1, 1, parent) && IsSufAt(o, depths, v)
  {
    var r := Ascend(o, 1, depths, a, b, c, parent);
    if !(c.rule != RuleUnknown && IsParentOf(a, c)) {
      assert r.out == SufGap(1, a, b, parent);
    }
  }

  /** The gap of one climb level followed by the gaps of the levels above
      are all sound when those above are. */
  lemma GapsMeet(o: seq<seq<Token>>, depths: seq<int>, depth: int, parent: bool, a: Token, b: Token, rest: seq<Visit>)
    requires CursorsInRange(o, depths) && 1 <= depth < |o|
    requires depths[depth] >= 1 && b == o[depth][depths[depth] - 1]
    requires depths[depth - 1] >= 1 && a == o[depth - 1][depths[depth - 1] - 1]
    requires forall v :: v in rest ==> 1 <= v.depth < depth && SufDue(o, depths, v.depth, depth, parent) && IsSufAt(o, depths, v)
    ensures forall v :: v in SufGap(depth, a, b, parent) + rest ==>
      1 <= v.depth <= depth && SufDue(o, depths, v.depth, depth, parent) && IsSufAt(o, depths, v)
  {
    forall v | v in SufGap(depth, a, b, parent) + rest
      ensures 1 <= v.depth <= depth && SufDue(o, depths, v.depth, depth, parent) && IsSufAt(o, depths, v)
    {
      if v !in rest {
        assert v in SufGap(depth, a, b, parent);
      }
    }
  }

  /** The gap of one climb level followed by the gaps of the levels above
      cover every level from `lo` up where a gap is due, when those above
      cover theirs. */
  lemma GapsJoin(o: seq<seq<Token>>, depths: seq<int>, depth: int, parent: bool, lo: int, a: Token, b: Token,
                 up: int, upParent: bool, rest: seq<Visit>)
    requires CursorsInRange(o, depths) && 2 <= depth < |o| && 0 <= lo && up == depth - 1
    requires depths[depth] >= 1 && b == o[depth][depths[depth] - 1]
    requires depths[depth - 1] >= 1 && a == o[depth - 1][depths[depth - 1] - 1]
    requires depths[depth - 2] >= 1 && upParent == IsParentOf(o[depth - 2][depths[depth - 2] - 1], a)
    requires forall d :: lo < d <= up && SufDue(o, depths, d, up, upParent) ==> exists v :: v in rest && v.depth == d
    ensures forall d :: lo < d <= depth && SufDue(o, depths, d, depth, parent) ==>
      exists v :: v in SufGap(depth, a, b, parent) + rest && v.depth == d
  {
    SufDueBelow(o, depths, depth, parent);
    var suf := SufGap(depth, a, b, parent);
    forall d | lo < d <= depth && SufDue(o, depths, d, depth, parent)
      ensures exists v :: v in suf + rest && v.depth == d
    {
      if d == depth {
        assert suf[0] in suf + rest;
      } else {
        var v :| v in rest && v.depth == d;
        assert v in suf + rest;
      }
    }
  }

  /** And the converse: every depth the climb leaves where such a gap is
      due gets one. */
  lemma {:induction false} AscendGapsComplete(o: seq<seq<Token>>, depth: int, depths: seq<int>, a: Token, b: Token, c: Token, parent: bool)
    requires CursorsInRange(o, depths) && 1 <= depth < |o|
    requires depths[depth] < |o[depth]| && c == o[depth][depths[depth]]
    requires depths[depth] >= 1 && b == o[depth][depths[depth] - 1]
    requires depths[depth - 1] >= 1 && a == o[depth - 1][depths[depth - 1] - 1]
    ensures
      var r := Ascend(o, depth, depths, a, b, c, parent);
      !r.Panicked? ==> forall d :: (if r.Resume? then r.depth else 0) < d <= depth && SufDue(o, depths, d, depth, parent) ==>
        exists v :: v in r.out && v.depth == d
    decreases depth
  {
    var whole := Ascend(o, depth, depths, a, b, c, parent);
    if depth == 1 {
      AscendGapsCompleteTop(o, depths, a, b, c, parent);
    } else if !(c.rule != RuleUnknown && IsParentOf(a, c)) && !whole.Panicked? {
      AscendStep(o, depth, depths, a, b, c, parent);
      var a2 := o[depth - 2][depths[depth - 2] - 1];
      var c2 := o[depth - 1][depths[depth - 1]];
      var r := Ascend(o, depth - 1, depths, a2, a, c2, IsParentOf(a2, a));
      AscendGapsComplete(o, depth - 1, depths, a2, a, c2, IsParentOf(a2, a));
      GapsJoin(o, depths, depth, parent, if r.Resume? then r.depth else 0, a, b, depth - 1, IsParentOf(a2, a), r.out);
    }
  }

  /** The climb out of depth 1 writes the gap due there, if any. */
  lemma AscendGapsCompleteTop(o: seq<seq<Token>>, depths: seq<int>, a: Token, b: Token, c: Token, parent: bool)
    requires CursorsInRange(o, depths) && 1 < |o|
    requires depths[1] < |o[1]| && c == o[1][depths[1]]
    requires depths[1] >= 1 && b == o[1][depths[1] - 1]
    requires depths[0] >= 1 && a == o[0][depths[0] - 1]
    ensures
      var r := Ascend(o, 1, depths, a, b, c, parent);
      !r.Panicked? && !r.Resume? && SufDue(o, depths, 1, 1, parent) ==> exists v :: v in r.out && v.depth == 1
  {
    var r := Ascend(o, 1, depths, a, b, c, parent);
    if !r.Panicked? && !r.Resume? && SufDue(o, depths, 1, 1, parent) {
      assert r.out == SufGap(1, a, b, parent);
      assert r.out[0] in r.out;
    }
  }

  /** What one pass of the outer loop does after writing the leading gap:
      descend into `b`'s first child `c` (showing `b` as an inner node), or
      show `b` as a leaf and climb until the walk ends or resumes. */
  datatype Step =
    | Descend(lead: seq<Visit>, c: Token)
    | Done(lead: seq<Visit>, climb: seq<Visit>)
    | Next(lead: seq<Visit>, climb: seq<Visit>, depth: int, a: Token, b: Token)
    | Crash

  /** The cursors after `b` has been read. */
  function Consume(depths: seq<int>, depth: int): seq<int>
    requires 0 <= depth < |depths|
  {
    depths[depth := depths[depth] + 1]
  }

  /** One pass of the outer loop from its head. */
  function OuterStep(o: seq<seq<Token>>, depth: int, depths: seq<int>, a: Token, b: Token): (r: Step)
    requires WalkInv(o, depth, depths, a, b)
    ensures !r.Crash? ==> r.lead == Lead(o, depth, depths, a, b) && depth + 1 < |o|
    // b is shown as an inner node exactly when the next unread token one
    // level down is a recorded token contained in it
    ensures depth + 1 < |o| && depths[depth + 1] < |o[depth + 1]| ==>
      (r.Descend? <==> o[depth + 1][depths[depth + 1]].rule != RuleUnknown && IsParentOf(b, o[depth + 1][depths[depth + 1]]))
    ensures r.Descend? ==>
      && r.c.rule != RuleUnknown && IsParentOf(b, r.c)
      && WalkInv(o, depth + 1, Consume(depths, depth), b, r.c)
    ensures r.Next? ==>
      && 1 <= r.depth <= depth
      && WalkInv(o, r.depth, Consume(depths, depth), r.a, r.b)
    ensures (r.Done? || r.Next?) ==> forall v :: v in r.climb ==>
      1 <= v.depth <= depth && v.leaf && GapWellFormed(v.token) && v.token.rule == RuleSuf
  {
    var lead := Lead(o, depth, depths, a, b);
    var depths' := Consume(depths, depth);
    match if depth + 1 < |o| then At(o, depth + 1, depths[depth + 1]) else None
    case None => Crash
    case Some(c) =>
      if c.rule != RuleUnknown && IsParentOf(b, c) then Descend(lead, c)
      else
        match At(o, depth, depths'[depth])
        case None => Crash
        case Some(c2) =>
          match Ascend(o, depth, depths', a, b, c2, true)
          case Panicked => Crash
          case Finished(out) => Done(lead, out)
          case Resume(d2, a2, b2, out) => Next(lead, out, d2, a2, b2)
  }

  /** The outer loop of the walk, from its head. */
  function Walk(o: seq<seq<Token>>, depth: int, depths: seq<int>, a: Token, b: Token): (r: Option<seq<Visit>>)
    requires WalkInv(o, depth, depths, a, b)
    ensures r.Some? ==> forall v :: v in r.value ==> 1 <= v.depth <= |o| - 2 && Emitted(o, v)
    decreases Unread(o, depths)
  {
    UnreadStep(o, depths, depth);
    match OuterStep(o, depth, depths, a, b)
    case Crash => None
    case Descend(lead, c) =>
      (match Walk(o, depth + 1, Consume(depths, depth), b, c)
       case None => None
       case Some(rest) => Some(lead + [Visit(b, depth, false)] + rest))
    case Done(lead, climb) => Some(lead + [Visit(b, depth, true)] + climb)
    case Next(lead, climb, d2, a2, b2) =>
      (match Walk(o, d2, Consume(depths, depth), a2, b2)
       case None => None
       case Some(rest) => Some(lead + [Visit(b, depth, true)] + climb + rest))
  }

  /** `PreOrder`: order the log, then walk from the first token of depth 1
      under the root `ordered[0][0]` (which itself is never emitted). The
      result carries the log after `Order`, the view, and the visits. */
  function PreOrder(log: Log): (r: (Log, seq<seq<Token>>, Option<seq<Visit>>))
    requires CanOrder(log)
    ensures (r.0, r.1) == Order(log)
    ensures r.2.Some? ==> forall v :: v in r.2.value ==> 1 <= v.depth <= |r.1| - 2 && Emitted(r.1, v)
  {
    var (l, o) := Order(log);
    if |o| >= 2 && |o[0]| >= 1 && |o[1]| >= 1 then
      (l, o, Walk(o, 1, RootRead(o), o[0][0], o[1][0]))
    else (l, o, None)
  }

  /** No recorded token carries one of the synthetic gap labels (the match
      engine never records them), so gaps and recorded tokens can be told
      apart by rule. */
  predicate NoGapRules(o: seq<seq<Token>>) {
    forall d, k :: 0 <= d < |o| && 0 <= k < |o[d]| ==> !IsGap(o[d][k].rule)
  }

  /** The visits that show recorded tokens, in emission order. */
  function Reals(vs: seq<Visit>): seq<Visit> {
    if |vs| == 0 then []
    else
      var v := vs[|vs| - 1];
      Reals(vs[..|vs| - 1]) + (if IsGap(v.token.rule) then [] else [v])
  }

  /** The recorded tokens shown at depth `d`, in emission order. */
  function TokensAt(vs: seq<Visit>, d: int): seq<Token> {
    if |vs| == 0 then []
    else
      var v := vs[|vs| - 1];
      TokensAt(vs[..|vs| - 1], d) + (if !IsGap(v.token.rule) && v.depth == d then [v.token] else [])
  }

  lemma {:induction false} ReconstructAppend(x: seq<Visit>, y: seq<Visit>)
    ensures Reals(x + y) == Reals(x) + Reals(y)
    ensures forall d :: TokensAt(x + y, d) == TokensAt(x, d) + TokensAt(y, d)
  {
    if |y| > 0 {
      var y' := y[..|y| - 1];
      assert (x + y)[..|x + y| - 1] == x + y';
      ReconstructAppend(x, y');
    } else {
      assert x + y == x;
    }
  }

  /** Consecutive recorded visits `u`, `w` follow a pre-order: after an
      inner node comes its first child one level deeper, contained in it;
      after a leaf the walk stays at the same depth or climbs. */
  predicate Links(u: Visit, w: Visit) {
    if u.leaf then w.depth <= u.depth
    else w.depth == u.depth + 1 && IsParentOf(u.token, w.token) && w.token.rule != RuleUnknown
  }

  predicate PreorderShape(rs: seq<Visit>) {
    && (forall k :: 0 <= k < |rs| - 1 ==> Links(rs[k], rs[k + 1]))
    && (|rs| > 0 ==> rs[|rs| - 1].leaf)
  }

  lemma ShapeCons(v: Visit, rs: seq<Visit>)
    requires PreorderShape(rs) && |rs| > 0 && Links(v, rs[0])
    ensures PreorderShape([v] + rs)
  {
    var s := [v] + rs;
    forall k | 0 <= k < |s| - 1
      ensures Links(s[k], s[k + 1])
    {
      if k > 0 {
        assert s[k] == rs[k - 1] && s[k + 1] == rs[k];
      }
    }
  }

  /** A visit of a recorded token, shown at depth `d`, contributes that
      token to depth `d` only. */
  lemma Single(v: Visit)
    requires !IsGap(v.token.rule)
    ensures Reals([v]) == [v]
    ensures forall d :: TokensAt([v], d) == (if d == v.depth then [v.token] else [])
  {
    assert [v] == [] + [v];
  }

  /** The recorded visits of one pass and the rest of the walk. */
  lemma Pass(lead: seq<Visit>, bv: Visit, climb: seq<Visit>, rest: seq<Visit>)
    requires forall v :: v in lead + climb ==> IsGap(v.token.rule)
    requires !IsGap(bv.token.rule)
    ensures Reals(lead + [bv] + climb + rest) == [bv] + Reals(rest)
    ensures forall d :: (TokensAt(lead + [bv] + climb + rest, d) ==
      (if d == bv.depth then [bv.token] else []) + TokensAt(rest, d))
  {
    GapsOnly(lead);
    GapsOnly(climb);
    Single(bv);
    ReconstructAppend(lead, [bv]);
    ReconstructAppend(lead + [bv], climb);
    ReconstructAppend(lead + [bv] + climb, rest);
  }

  /** The pre-order facts for one pass followed by the rest of the walk. */
  predicate StartsWith(rs: seq<Visit>, t: Token, depth: int) {
    |rs| >= 1 && rs[0] == Visit(t, depth, rs[0].leaf) && PreorderShape(rs)
  }

  lemma ShapePass(lead: seq<Visit>, bv: Visit, climb: seq<Visit>, rest: seq<Visit>)
    requires forall v :: v in lead + climb ==> IsGap(v.token.rule)
    requires !IsGap(bv.token.rule)
    requires rest == [] ==> bv.leaf
    requires rest != [] ==> |Reals(rest)| >= 1 && PreorderShape(Reals(rest)) && Links(bv, Reals(rest)[0])
    ensures StartsWith(Reals(lead + [bv] + climb + rest), bv.token, bv.depth)
  {
    Pass(lead, bv, climb, rest);
    if rest == [] {
      assert Reals(rest) == [];
      assert [bv] + Reals(rest) == [bv];
    } else {
      ShapeCons(bv, Reals(rest));
    }
  }

  /** The visits in front of a head are gaps. */
  lemma LeadIsGaps(o: seq<seq<Token>>, depth: int, depths: seq<int>, a: Token, b: Token)
    requires WalkInv(o, depth, depths, a, b)
    ensures forall v :: v in Lead(o, depth, depths, a, b) ==> IsGap(v.token.rule)
  {
  }

  /** The shape after `b` shown as an inner node above the shape of its
      first child. */
  lemma DescendShape(lead: seq<Visit>, b: Token, depth: int, c: Token, rest: seq<Visit>)
    requires forall v :: v in lead ==> IsGap(v.token.rule)
    requires !IsGap(b.rule) && c.rule != RuleUnknown && IsParentOf(b, c)
    requires StartsWith(Reals(rest), c, depth + 1)
    ensures StartsWith(Reals(lead + [Visit(b, depth, false)] + rest), b, depth)
  {
    assert lead + [Visit(b, depth, false)] + rest == lead + [Visit(b, depth, false)] + [] + rest;
    ShapePass(lead, Visit(b, depth, false), [], rest);
  }

  /** The shape after `b` shown as a leaf, followed by the climb and the
      shape from a head at most as deep. */
  lemma NextShape(lead: seq<Visit>, b: Token, depth: int, climb: seq<Visit>, d2: int, b2: Token, rest: seq<Visit>)
    requires forall v :: v in lead ==> IsGap(v.token.rule)
    requires forall v :: v in climb ==> IsGap(v.token.rule)
    requires !IsGap(b.rule) && d2 <= depth
    requires StartsWith(Reals(rest), b2, d2)
    ensures StartsWith(Reals(lead + [Visit(b, depth, true)] + climb + rest), b, depth)
  {
    ShapePass(lead, Visit(b, depth, true), climb, rest);
  }

  /** What the walk rebuilds from a head state: its recorded visits start
      with `b` at the current depth and form a pre-order (inner nodes are
      followed by a contained child one level down, the last one is a
      leaf). */
  lemma {:induction false} WalkShape(o: seq<seq<Token>>, depth: int, depths: seq<int>, a: Token, b: Token)
    requires WalkInv(o, depth, depths, a, b) && NoGapRules(o)
    requires Walk(o, depth, depths, a, b).Some?
    ensures StartsWith(Reals(Walk(o, depth, depths, a, b).value), b, depth)
    decreases Unread(o, depths), 1
  {
    match OuterStep(o, depth, depths, a, b)
    case Descend(_, _) => WalkShapeDescend(o, depth, depths, a, b);
    case Done(lead, climb) =>
      assert !IsGap(b.rule);
      ShapePass(lead, Visit(b, depth, true), climb, []);
      assert lead + [Visit(b, depth, true)] + climb + [] == lead + [Visit(b, depth, true)] + climb;
    case Next(_, _, _, _, _) => WalkShapeNext(o, depth, depths, a, b);
  }

  /** `WalkShape` when `b` is shown as an inner node. */
  lemma {:induction false} WalkShapeDescend(o: seq<seq<Token>>, depth: int, depths: seq<int>, a: Token, b: Token)
    requires WalkInv(o, depth, depths, a, b) && NoGapRules(o)
    requires Walk(o, depth, depths, a, b).Some? && OuterStep(o, depth, depths, a, b).Descend?
    ensures StartsWith(Reals(Walk(o, depth, depths, a, b).value), b, depth)
    decreases Unread(o, depths), 0
  {
    var step := OuterStep(o, depth, depths, a, b);
    var depths' := Consume(depths, depth);
    UnreadStep(o, depths, depth);
    assert !IsGap(b.rule);
    LeadIsGaps(o, depth, depths, a, b);
    WalkShape(o, depth + 1, depths', b, step.c);
    DescendShape(step.lead, b, depth, step.c, Walk(o, depth + 1, depths', b, step.c).value);
  }

  /** `WalkShape` when `b` is shown as a leaf and the walk resumes higher
      up. */
  lemma {:induction false} WalkShapeNext(o: seq<seq<Token>>, depth: int, depths: seq<int>, a: Token, b: Token)
    requires WalkInv(o, depth, depths, a, b) && NoGapRules(o)
    requires Walk(o, depth, depths, a, b).Some? && OuterStep(o, depth, depths, a, b).Next?
    ensures StartsWith(Reals(Walk(o, depth, depths, a, b).value), b, depth)
    decreases Unread(o, depths), 0
  {
    var step := OuterStep(o, depth, depths, a, b);
    var depths' := Consume(depths, depth);
    UnreadStep(o, depths, depth);
    assert !IsGap(b.rule);
    LeadIsGaps(o, depth, depths, a, b);
    WalkShape(o, step.depth, depths', step.a, step.b);
    NextShape(step.lead, b, depth, step.climb, step.depth, step.b, Walk(o, step.depth, depths', step.a, step.b).value);
  }

  /** `TokensAt(out, d)` are the next unread tokens of bucket `d`. */
  predicate ReadsInOrder(o: seq<seq<Token>>, depths: seq<int>, out: seq<Visit>)
    requires CursorsInRange(o, depths)
  {
    forall d :: 0 <= d < |o| ==>
      && depths[d] + |TokensAt(out, d)| <= |o[d]|
      && TokensAt(out, d) == o[d][depths[d]..depths[d] + |TokensAt(out, d)|]
  }

  lemma OrderPass(o: seq<seq<Token>>, depths: seq<int>, depth: int,
                  lead: seq<Visit>, bv: Visit, climb: seq<Visit>, rest: seq<Visit>)
    requires CursorsInRange(o, depths) && 0 <= depth < |o| && depths[depth] < |o[depth]|
    requires forall v :: v in lead + climb ==> IsGap(v.token.rule)
    requires bv.token == o[depth][depths[depth]] && bv.depth == depth && !IsGap(bv.token.rule)
    requires ReadsInOrder(o, Consume(depths, depth), rest)
    ensures ReadsInOrder(o, depths, lead + [bv] + climb + rest)
  {
    Pass(lead, bv, climb, rest);
    var out := lead + [bv] + climb + rest;
    forall d | 0 <= d < |o|
      ensures depths[d] + |TokensAt(out, d)| <= |o[d]|
      ensures TokensAt(out, d) == o[d][depths[d]..depths[d] + |TokensAt(out, d)|]
    {
      var n := |TokensAt(rest, d)|;
      if d == depth {
        assert TokensAt(rest, d) == o[d][depths[d] + 1..depths[d] + 1 + n];
      }
    }
  }

  /** At every depth, the recorded tokens the walk shows are that bucket's
      unread tokens in bucket (recording) order, none skipped or repeated. */
  lemma {:induction false} WalkInBucketOrder(o: seq<seq<Token>>, depth: int, depths: seq<int>, a: Token, b: Token)
    requires WalkInv(o, depth, depths, a, b) && NoGapRules(o)
    requires Walk(o, depth, depths, a, b).Some?
    ensures ReadsInOrder(o, depths, Walk(o, depth, depths, a, b).value)
    decreases Unread(o, depths), 1
  {
    match OuterStep(o, depth, depths, a, b)
    case Descend(_, _) => BucketOrderDescend(o, depth, depths, a, b);
    case Done(lead, climb) =>
      assert !IsGap(b.rule);
      LeadIsGaps(o, depth, depths, a, b);
      assert Walk(o, depth, depths, a, b).value == lead + [Visit(b, depth, true)] + climb + [];
      assert ReadsInOrder(o, Consume(depths, depth), []);
      OrderPass(o, depths, depth, lead, Visit(b, depth, true), climb, []);
    case Next(_, _, _, _, _) => BucketOrderNext(o, depth, depths, a, b);
  }

  /** `WalkInBucketOrder` when `b` is shown as an inner node. */
  lemma {:induction false} BucketOrderDescend(o: seq<seq<Token>>, depth: int, depths: seq<int>, a: Token, b: Token)
    requires WalkInv(o, depth, depths, a, b) && NoGapRules(o)
    requires Walk(o, depth, depths, a, b).Some? && OuterStep(o, depth, depths, a, b).Descend?
    ensures ReadsInOrder(o, depths, Walk(o, depth, depths, a, b).value)
    decreases Unread(o, depths), 0
  {
    var step := OuterStep(o, depth, depths, a, b);
    var depths' := Consume(depths, depth);
    UnreadStep(o, depths, depth);
    assert !IsGap(b.rule);
    LeadIsGaps(o, depth, depths, a, b);
    var rest := Walk(o, depth + 1, depths', b, step.c).value;
    assert Walk(o, depth, depths, a, b).value == step.lead + [Visit(b, depth, false)] + [] + rest;
    WalkInBucketOrder(o, depth + 1, depths', b, step.c);
    OrderPass(o, depths, depth, step.lead, Visit(b, depth, false), [], rest);
  }

  /** `WalkInBucketOrder` when `b` is shown as a leaf and the walk resumes
      higher up. */
  lemma {:induction false} BucketOrderNext(o: seq<seq<Token>>, depth: int, depths: seq<int>, a: Token, b: Token)
    requires WalkInv(o, depth, depths, a, b) && NoGapRules(o)
    requires Walk(o, depth, depths, a, b).Some? && OuterStep(o, depth, depths, a, b).Next?
    ensures ReadsInOrder(o, depths, Walk(o, depth, depths, a, b).value)
    decreases Unread(o, depths), 0
  {
    var step := OuterStep(o, depth, depths, a, b);
    var depths' := Consume(depths, depth);
    UnreadStep(o, depths, depth);
    assert !IsGap(b.rule);
    LeadIsGaps(o, depth, depths, a, b);
    var rest := Walk(o, step.depth, depths', step.a, step.b).value;
    assert Walk(o, depth, depths, a, b).value == step.lead + [Visit(b, depth, true)] + step.climb + rest;
    WalkInBucketOrder(o, step.depth, depths', step.a, step.b);
    OrderPass(o, depths, depth, step.lead, Visit(b, depth, true), step.climb, rest);
  }

  /** A run of gap visits shows no recorded token. */
  lemma {:induction false} GapsOnly(vs: seq<Visit>)
    requires forall v :: v in vs ==> IsGap(v.token.rule)
    ensures Reals(vs) == [] && forall d :: TokensAt(vs, d) == []
  {
    if |vs| > 0 {
      GapsOnly(vs[..|vs| - 1]);
    }
  }

  lemma ViewNoGaps(o: seq<seq<Token>>, live: seq<Token>)
    requires IsViewOf(o, live)
    requires forall i :: 0 <= i < |live| ==> !IsGap(live[i].rule)
    ensures NoGapRules(o)
  {
    forall d: int, k: int | 0 <= d < |o| && 0 <= k < |o[d]|
      ensures !IsGap(o[d][k].rule)
    {
      if k < |o[d]| - 1 {
        assert live[o[d][k].next].rule == o[d][k].rule;
      }
    }
  }

  /** A view built from a log without gap labels has none either. */
  lemma ViewHasNoGapRules(log: Log)
    requires DepthsFit(log.tree[..LiveLength(log.tree)]) && Coherent(log)
    requires forall i :: 0 <= i < |log.tree| ==> !IsGap(log.tree[i].rule)
    ensures NoGapRules(Order(log).1)
  {
    OrderedView(log);
    ViewNoGaps(Order(log).1, log.tree[..LiveLength(log.tree)]);
  }

  /** The cursors the walk starts with: the root has been read. */
  function RootRead(o: seq<seq<Token>>): (depths: seq<int>)
    ensures |depths| == |o|
    ensures forall d :: 0 <= d < |o| ==> depths[d] == if d == 0 then 1 else 0
  {
    seq(|o|, d => if d == 0 then 1 else 0)
  }

  lemma WalkFromRoot(o: seq<seq<Token>>)
    requires |o| >= 2 && |o[0]| >= 1 && |o[1]| >= 1 && NoGapRules(o)
    requires Walk(o, 1, RootRead(o), o[0][0], o[1][0]).Some?
    ensures
      var out := Walk(o, 1, RootRead(o), o[0][0], o[1][0]).value;
      && StartsWith(Reals(out), o[1][0], 1)
      && (forall d :: 1 <= d < |o| ==>
            |TokensAt(out, d)| <= |o[d]| && TokensAt(out, d) == o[d][..|TokensAt(out, d)|])
  {
    WalkShape(o, 1, RootRead(o), o[0][0], o[1][0]);
    WalkInBucketOrder(o, 1, RootRead(o), o[0][0], o[1][0]);
  }

  /** `PreOrder` over a log the engine recorded (no gap labels, depths in
      range): when the walk completes, its recorded visits start with the
      first depth-1 token, form a pre-order whose inner nodes are each
      followed by a contained child one level deeper, and show each
      bucket's tokens as a prefix of that bucket, in recording order. */
  lemma PreOrderReconstructs(log: Log)
    requires DepthsFit(log.tree[..LiveLength(log.tree)]) && Coherent(log)
    requires forall i :: 0 <= i < |log.tree| ==> !IsGap(log.tree[i].rule)
    requires PreOrder(log).2.Some?
    ensures
      var o := PreOrder(log).1;
      var out := PreOrder(log).2.value;
      && StartsWith(Reals(out), o[1][0], 1)
      && (forall d :: 1 <= d < |o| ==>
            |TokensAt(out, d)| <= |o[d]| && TokensAt(out, d) == o[d][..|TokensAt(out, d)|])
  {
    ViewHasNoGapRules(log);
    WalkFromRoot(Order(log).1);
  }

  // Completion: on the view `Order` builds, the walk never panics once a
  // depth-1 token exists.

  /** The shape of every view `Order` builds: each bucket ends with a zero
      slot, and the extra top bucket holds nothing else. */
  predicate Framed(o: seq<seq<Token>>) {
    && |o| >= 2
    && (forall d :: 0 <= d < |o| ==> |o[d]| >= 1 && o[d][|o[d]| - 1].rule == RuleUnknown)
    && |o[|o| - 1]| == 1
  }

  /** The read cursors the walk can use without panicking: above the root
      bucket no cursor has passed a bucket's zero slot, and every level above
      the current one has been read at least once. */
  predicate Safe(o: seq<seq<Token>>, depth: int, depths: seq<int>)
    requires CursorsInRange(o, depths)
  {
    && (forall d :: 1 <= d < |o| ==> depths[d] <= |o[d]| - 1)
    && (forall d :: 0 <= d < depth && d < |o| ==> depths[d] >= 1)
  }

  lemma {:induction false} AscendCompletes(o: seq<seq<Token>>, depth: int, depths: seq<int>, a: Token, b: Token, c: Token, parent: bool)
    requires CursorsInRange(o, depths) && 1 <= depth < |o|
    requires depths[depth] < |o[depth]| && c == o[depth][depths[depth]]
    requires depths[depth - 1] >= 1 && a == o[depth - 1][depths[depth - 1] - 1]
    requires Safe(o, depth, depths)
    ensures !Ascend(o, depth, depths, a, b, c, parent).Panicked?
    ensures Ascend(o, depth, depths, a, b, c, parent).Resume? ==>
      var r := Ascend(o, depth, depths, a, b, c, parent);
      Safe(o, r.depth, depths) && r.b.rule != RuleUnknown
    decreases depth
  {
    if !(c.rule != RuleUnknown && IsParentOf(a, c)) {
      var d := depth - 1;
      if d > 0 {
        var a2, c2 := o[d - 1][depths[d - 1] - 1], o[d][depths[d]];
        assert At(o, d - 1, depths[d - 1] - 1) == Some(a2);
        assert At(o, d, depths[d]) == Some(c2);
        AscendCompletes(o, d, depths, a2, a, c2, IsParentOf(a2, a));
      }
    }
  }

  /** From a head whose `b` is a recorded token, with safe cursors, the walk
      runs to its end without panicking. */
  lemma {:induction false} WalkCompletes(o: seq<seq<Token>>, depth: int, depths: seq<int>, a: Token, b: Token)
    requires WalkInv(o, depth, depths, a, b) && Framed(o) && Safe(o, depth, depths)
    requires b.rule != RuleUnknown
    ensures Walk(o, depth, depths, a, b).Some?
    decreases Unread(o, depths)
  {
    var depths' := Consume(depths, depth);
    UnreadStep(o, depths, depth);
    assert depths[depth] < |o[depth]| - 1;
    assert depth + 1 < |o|;
    var c := o[depth + 1][depths[depth + 1]];
    assert At(o, depth + 1, depths[depth + 1]) == Some(c);
    if c.rule != RuleUnknown && IsParentOf(b, c) {
      WalkCompletes(o, depth + 1, depths', b, c);
    } else {
      var c2 := o[depth][depths'[depth]];
      assert At(o, depth, depths'[depth]) == Some(c2);
      AscendCompletes(o, depth, depths', a, b, c2, true);
      match Ascend(o, depth, depths', a, b, c2, true)
      case Finished(_) =>
      case Resume(d2, a2, b2, _) => WalkCompletes(o, d2, depths', a2, b2);
    }
  }

  /** A bucket holding any token sits at a depth no greater than `Height`. */
  lemma HeldBelowHeight(b: seq<Token>, live: seq<Token>, d: int)
    requires HoldsDepth(b, live, d)
    ensures |b| > 0 ==> d <= Height(live)
  {
    if |b| > 0 {
      assert live[b[0].next].next == d;
    }
  }

  /** The view of a log is framed. */
  lemma ViewIsFramed(o: seq<seq<Token>>, live: seq<Token>)
    requires IsViewOf(o, live)
    ensures Framed(o)
  {
    var top := |o| - 1;
    var rest := o[top][..|o[top]| - 1];
    assert HoldsDepth(rest, live, top);
    HeldBelowHeight(rest, live, top);
  }

  /** On a framed view whose first depth-1 slot is a recorded token, the
      walk from the root runs to its end. */
  lemma RootWalkCompletes(o: seq<seq<Token>>)
    requires Framed(o) && o[1][0].rule != RuleUnknown
    ensures Walk(o, 1, RootRead(o), o[0][0], o[1][0]).Some?
  {
    var depths := RootRead(o);
    assert WalkInv(o, 1, depths, o[0][0], o[1][0]);
    assert Safe(o, 1, depths);
    WalkCompletes(o, 1, depths, o[0][0], o[1][0]);
  }

  /** In the view of a live prefix that records something at depth 1, the
      first depth-1 slot is a recorded token. */
  lemma FirstAtDepthOne(o: seq<seq<Token>>, live: seq<Token>, i: int)
    requires IsViewOf(o, live) && forall j :: 0 <= j < |live| ==> live[j].rule != RuleUnknown
    requires 0 <= i < |live| && live[i].next == 1
    ensures |o| >= 2 && |o[1]| >= 2 && o[1][0].rule != RuleUnknown
  {
    var held := o[1][..|o[1]| - 1];
    assert live[i].(next := i) in held;
    assert held[0] == o[1][0];
    assert live[held[0].next] == held[0].(next := 1);
  }

  /** `PreOrder` on a coherent log with at least one token recorded at
      depth 1 always completes. */
  lemma PreOrderCompletes(log: Log)
    requires DepthsFit(log.tree[..LiveLength(log.tree)]) && Coherent(log)
    requires exists i :: 0 <= i < LiveLength(log.tree) && log.tree[i].next == 1
    ensures PreOrder(log).2.Some?
  {
    var live := log.tree[..LiveLength(log.tree)];
    OrderedView(log);
    var o := Order(log).1;
    ViewIsFramed(o, live);
    var i :| 0 <= i < LiveLength(log.tree) && log.tree[i].next == 1;
    FirstAtDepthOne(o, live, i);
    RootWalkCompletes(o);
  }

  // The walk on "a b" parsed as a sequence under one root: two leaves at
  // depth 1 and an `_In_` gap for the blank between them.

  const ExA := Token(RuleIdentifier, 0, 1, 1)
  const ExB := Token(RuleIdentifier, 2, 3, 1)
  const ExRoot := Token(RuleGrammar, 0, 3, 0)

  lemma SpacedPairLive()
    ensures LiveLength([ExA, ExB, ExRoot, Zero]) == 3
  {
    assert LiveLength([Zero]) == 0;
    assert [ExRoot, Zero][1..] == [Zero];
    assert LiveLength([ExRoot, Zero]) == 1;
    assert [ExB, ExRoot, Zero][1..] == [ExRoot, Zero];
    assert LiveLength([ExB, ExRoot, Zero]) == 2;
    assert [ExA, ExB, ExRoot, Zero][1..] == [ExB, ExRoot, Zero];
  }

  lemma SpacedPairHeight()
    ensures Height([ExA, ExB, ExRoot]) == 1
  {
    var live, ab, just := [ExA, ExB, ExRoot], [ExA, ExB], [ExA];
    assert live[..2] == ab && ab[..1] == just && just[..0] == [];
    assert Height(just) == 1;
    assert Height(ab) == 1;
  }

  lemma SpacedPairRoot()
    ensures Bucket([ExA, ExB, ExRoot], 0) == [ExRoot.(next := 2)]
  {
    var live, ab, just := [ExA, ExB, ExRoot], [ExA, ExB], [ExA];
    assert live[..2] == ab && ab[..1] == just && just[..0] == [];
    assert Bucket(just, 0) == [];
    assert Bucket(ab, 0) == [];
  }

  lemma SpacedPairLeaves()
    ensures Bucket([ExA, ExB, ExRoot], 1) == [ExA.(next := 0), ExB.(next := 1)]
  {
    var live, ab, just := [ExA, ExB, ExRoot], [ExA, ExB], [ExA];
    assert live[..2] == ab && ab[..1] == just && just[..0] == [];
    assert Bucket(just, 1) == [ExA.(next := 0)];
    assert Bucket(ab, 1) == [ExA.(next := 0), ExB.(next := 1)];
  }

  lemma SpacedPairBelow()
    ensures Bucket([ExA, ExB, ExRoot], 2) == []
  {
    var live, ab, just := [ExA, ExB, ExRoot], [ExA, ExB], [ExA];
    assert live[..2] == ab && ab[..1] == just && just[..0] == [];
    assert Bucket(just, 2) == [];
    assert Bucket(ab, 2) == [];
  }

  lemma SpacedPairBuckets()
    ensures Buckets([ExA, ExB, ExRoot]) ==
      [[ExRoot.(next := 2), Zero], [ExA.(next := 0), ExB.(next := 1), Zero], [Zero]]
  {
    var o := Buckets([ExA, ExB, ExRoot]);
    SpacedPairHeight();
    SpacedPairRoot();
    assert o[0] == [ExRoot.(next := 2), Zero];
    SpacedPairLeaves();
    assert o[1] == [ExA.(next := 0), ExB.(next := 1), Zero];
    SpacedPairBelow();
    assert o[2] == [Zero];
    ThreeOf(o, [ExRoot.(next := 2), Zero], [ExA.(next := 0), ExB.(next := 1), Zero], [Zero]);
  }

  lemma ThreeOf<T>(s: seq<T>, x: T, y: T, z: T)
    requires |s| == 3 && s[0] == x && s[1] == y && s[2] == z
    ensures s == [x, y, z]
  {
  }

  lemma SpacedPairOrder()
    ensures CanOrder(Log([ExA, ExB, ExRoot, Zero], None, false))
    ensures Order(Log([ExA, ExB, ExRoot, Zero], None, false)).1 == SpacedPairView()
  {
    SpacedPairLive();
    assert [ExA, ExB, ExRoot, Zero][..3] == [ExA, ExB, ExRoot];
    SpacedPairBuckets();
  }

  /** The view of the example. */
  function SpacedPairView(): seq<seq<Token>> {
    [[ExRoot.(next := 2), Zero], [ExA.(next := 0), ExB.(next := 1), Zero], [Zero]]
  }

  lemma SpacedPairFirstPass()
    ensures WalkInv(SpacedPairView(), 1, [1, 0, 0], ExRoot.(next := 2), ExA.(next := 0))
    ensures OuterStep(SpacedPairView(), 1, [1, 0, 0], ExRoot.(next := 2), ExA.(next := 0))
         == Next([], [], 1, ExRoot.(next := 2), ExB.(next := 1))
  {
    var o := SpacedPairView();
    assert Consume([1, 0, 0], 1) == [1, 1, 0];
    assert Lead(o, 1, [1, 0, 0], ExRoot.(next := 2), ExA.(next := 0)) == [];
    assert Ascend(o, 1, [1, 1, 0], ExRoot.(next := 2), ExA.(next := 0), ExB.(next := 1), true)
        == Resume(1, ExRoot.(next := 2), ExB.(next := 1), []);
  }

  lemma SpacedPairSecondPass()
    ensures WalkInv(SpacedPairView(), 1, [1, 1, 0], ExRoot.(next := 2), ExB.(next := 1))
    ensures OuterStep(SpacedPairView(), 1, [1, 1, 0], ExRoot.(next := 2), ExB.(next := 1))
         == Done([Visit(Token(RuleIn, 1, 2, 0), 1, true)], [])
  {
    var o := SpacedPairView();
    assert Consume([1, 1, 0], 1) == [1, 2, 0];
    assert Lead(o, 1, [1, 1, 0], ExRoot.(next := 2), ExB.(next := 1)) == [Visit(Token(RuleIn, 1, 2, 0), 1, true)];
    assert Ascend(o, 1, [1, 2, 0], ExRoot.(next := 2), ExB.(next := 1), Zero, true) == Finished([]);
  }

  lemma SpacedPairTail()
    ensures WalkInv(SpacedPairView(), 1, [1, 1, 0], ExRoot.(next := 2), ExB.(next := 1))
    ensures Walk(SpacedPairView(), 1, [1, 1, 0], ExRoot.(next := 2), ExB.(next := 1))
         == Some([Visit(Token(RuleIn, 1, 2, 0), 1, true), Visit(ExB.(next := 1), 1, true)])
  {
    SpacedPairSecondPass();
    var lead := [Visit(Token(RuleIn, 1, 2, 0), 1, true)];
    assert lead + [Visit(ExB.(next := 1), 1, true)] + []
        == [Visit(Token(RuleIn, 1, 2, 0), 1, true), Visit(ExB.(next := 1), 1, true)];
  }

  lemma SpacedPairWalk()
    ensures WalkInv(SpacedPairView(), 1, [1, 0, 0], ExRoot.(next := 2), ExA.(next := 0))
    ensures Walk(SpacedPairView(), 1, [1, 0, 0], ExRoot.(next := 2), ExA.(next := 0)) == Some([
      Visit(ExA.(next := 0), 1, true),
      Visit(Token(RuleIn, 1, 2, 0), 1, true),
      Visit(ExB.(next := 1), 1, true)])
  {
    SpacedPairFirstPass();
    assert Consume([1, 0, 0], 1) == [1, 1, 0];
    SpacedPairTail();
    var rest := [Visit(Token(RuleIn, 1, 2, 0), 1, true), Visit(ExB.(next := 1), 1, true)];
    assert [] + [Visit(ExA.(next := 0), 1, true)] + [] + rest
        == [Visit(ExA.(next := 0), 1, true), Visit(Token(RuleIn, 1, 2, 0), 1, true), Visit(ExB.(next := 1), 1, true)];
  }

  /** `PreOrder` on "a b" parsed as a sequence under one root: two leaves
      at depth 1 with an `_In_` gap for the blank between them; the root
      itself is not shown. */
  lemma SpacedPair()
    ensures CanOrder(Log([ExA, ExB, ExRoot, Zero], None, false))
    ensures PreOrder(Log([ExA, ExB, ExRoot, Zero], None, false)).2 == Some([
      Visit(ExA.(next := 0), 1, true),
      Visit(Token(RuleIn, 1, 2, 0), 1, true),
      Visit(ExB.(next := 1), 1, true)])
  {
    SpacedPairOrder();
    assert RootRead(SpacedPairView()) == [1, 0, 0];
    SpacedPairWalk();
  }

  // The walk on a definition whose name stops short of its end: "ab "
  // recorded as a PegText [0, 2) inside an Identifier [0, 3) under the
  // root. Climbing out of the name writes a `_Suf` gap over the blank.

  const ExName := Token(RulePegText, 0, 2, 2)
  const ExDef := Token(RuleIdentifier, 0, 3, 1)

  /** The view `Order` builds from [ExName, ExDef, ExRoot]. */
  function TrailingView(): seq<seq<Token>> {
    [[ExRoot.(next := 2), Zero], [ExDef.(next := 1), Zero], [ExName.(next := 0), Zero], [Zero]]
  }

  lemma TrailingClimb()
    ensures Ascend(TrailingView(), 2, [1, 1, 1, 0], ExDef.(next := 1), ExName.(next := 0), Zero, true)
         == Finished([Visit(Token(RuleSuf, 2, 3, 0), 2, true)])
  {
    var o := TrailingView();
    assert At(o, 0, 0) == Some(ExRoot.(next := 2)) && At(o, 1, 1) == Some(Zero);
    assert Ascend(o, 1, [1, 1, 1, 0], ExRoot.(next := 2), ExDef.(next := 1), Zero, true) == Finished([]);
  }

  lemma TrailingLeaf()
    ensures WalkInv(TrailingView(), 2, [1, 1, 0, 0], ExDef.(next := 1), ExName.(next := 0))
    ensures Walk(TrailingView(), 2, [1, 1, 0, 0], ExDef.(next := 1), ExName.(next := 0))
         == Some([Visit(ExName.(next := 0), 2, true), Visit(Token(RuleSuf, 2, 3, 0), 2, true)])
  {
    var o := TrailingView();
    assert Consume([1, 1, 0, 0], 2) == [1, 1, 1, 0];
    assert Lead(o, 2, [1, 1, 0, 0], ExDef.(next := 1), ExName.(next := 0)) == [];
    TrailingClimb();
    assert OuterStep(o, 2, [1, 1, 0, 0], ExDef.(next := 1), ExName.(next := 0))
        == Done([], [Visit(Token(RuleSuf, 2, 3, 0), 2, true)]);
    assert [] + [Visit(ExName.(next := 0), 2, true)] + [Visit(Token(RuleSuf, 2, 3, 0), 2, true)]
        == [Visit(ExName.(next := 0), 2, true), Visit(Token(RuleSuf, 2, 3, 0), 2, true)];
  }

  /** The walk shows the definition as an inner node, its name as a leaf
      one level down, and then a `_Suf` gap [2, 3) from the name's end to
      the definition's end. */
  lemma TrailingWalk()
    ensures WalkInv(TrailingView(), 1, [1, 0, 0, 0], ExRoot.(next := 2), ExDef.(next := 1))
    ensures Walk(TrailingView(), 1, [1, 0, 0, 0], ExRoot.(next := 2), ExDef.(next := 1)) == Some([
      Visit(ExDef.(next := 1), 1, false),
      Visit(ExName.(next := 0), 2, true),
      Visit(Token(RuleSuf, 2, 3, 0), 2, true)])
  {
    var o := TrailingView();
    assert Consume([1, 0, 0, 0], 1) == [1, 1, 0, 0];
    assert Lead(o, 1, [1, 0, 0, 0], ExRoot.(next := 2), ExDef.(next := 1)) == [];
    assert At(o, 2, 0) == Some(ExName.(next := 0));
    assert OuterStep(o, 1, [1, 0, 0, 0], ExRoot.(next := 2), ExDef.(next := 1)) == Descend([], ExName.(next := 0));
    TrailingLeaf();
    var rest := [Visit(ExName.(next := 0), 2, true), Visit(Token(RuleSuf, 2, 3, 0), 2, true)];
    assert [] + [Visit(ExDef.(next := 1), 1, false)] + rest
        == [Visit(ExDef.(next := 1), 1, false), Visit(ExName.(next := 0), 2, true), Visit(Token(RuleSuf, 2, 3, 0), 2, true)];
  }
}

=== FILE: rules.dfy ===
/** A representative set of the generated rule closures of the grammar
    parser, each as a function of the input and the engine state, with the
    language each one accepts stated through reference definitions on the
    input alone. */
module Rules {
  import opened Tokens
  import opened Engine

  // ---------------------------------------------------------------------
  // Character classes and reference scanners on the input alone
  // ---------------------------------------------------------------------

  predicate IsLineBreak(c: char) { c == '\r' || c == '\n' }

  /** The characters `Space` accepts on their own or as a line end. */
  predicate IsBlank(c: char) { c == ' ' || c == '\t' || IsLineBreak(c) }

  predicate IsIdentStart(c: char) { 'a' <= c <= 'z' || 'A' <= c <= 'Z' || c == '_' }

  predicate IsIdentCont(c: char) { IsIdentStart(c) || '0' <= c <= '9' }

  /** Where a line end beginning at `p` stops: after "\r\n" when both are
      there, after the single character otherwise. */
  function BreakEnd(buffer: seq<char>, p: int): int
    requires 0 <= p < |buffer|
  {
    if buffer[p] == '\r' && p + 1 < |buffer| && buffer[p + 1] == '\n' then p + 2 else p + 1
  }

  /** The first index at or after `i` holding a line break or the sentinel. */
  function LineStop(buffer: seq<char>, i: int): (k: int)
    requires Terminated(buffer) && 0 <= i < |buffer|
    ensures i <= k < |buffer|
    ensures IsLineBreak(buffer[k]) || buffer[k] == EndSymbol
    ensures forall j :: i <= j < k ==> !IsLineBreak(buffer[j]) && buffer[j] != EndSymbol
    decreases |buffer| - i
  {
    if IsLineBreak(buffer[i]) || buffer[i] == EndSymbol then i else LineStop(buffer, i + 1)
  }

  /** The first index at or after `i` holding no identifier character. */
  function IdentRunEnd(buffer: seq<char>, i: int): (k: int)
    requires Terminated(buffer) && 0 <= i < |buffer|
    ensures i <= k < |buffer| && !IsIdentCont(buffer[k])
    ensures forall j :: i <= j < k ==> IsIdentCont(buffer[j])
    decreases |buffer| - i
  {
    if !IsIdentCont(buffer[i]) then i else IdentRunEnd(buffer, i + 1)
  }

  /** A comment starts at `p`: a `#` whose line is closed by a line break
      before the end of the input. */
  predicate StartsComment(buffer: seq<char>, p: int)
    requires Terminated(buffer) && 0 <= p < |buffer|
  {
    buffer[p] == '#' && p + 1 < |buffer| && buffer[LineStop(buffer, p + 1)] != EndSymbol
  }

  /** Layout starts at `p`: a blank or a comment. */
  predicate StartsSpacing(buffer: seq<char>, p: int)
    requires Terminated(buffer) && 0 <= p < |buffer|
  {
    IsBlank(buffer[p]) || StartsComment(buffer, p)
  }

  /** Where the layout starting at `p` ends: blanks and whole comments
      skipped one after another. */
  function SpacingEnd(buffer: seq<char>, p: int): (k: int)
    requires Terminated(buffer) && 0 <= p < |buffer|
    ensures p <= k < |buffer|
    decreases |buffer| - p
  {
    if StartsSpacing(buffer, p) then SpacingEnd(buffer, LayoutStep(buffer, p)) else p
  }

  /** Where the blank or comment starting at `p` ends. */
  function LayoutStep(buffer: seq<char>, p: int): (k: int)
    requires Terminated(buffer) && 0 <= p < |buffer| && StartsSpacing(buffer, p)
    ensures p < k < |buffer|
  {
    if IsLineBreak(buffer[p]) then BreakEnd(buffer, p)
    else if IsBlank(buffer[p]) then p + 1
    else BreakEnd(buffer, LineStop(buffer, p + 1))
  }

  /** Layout is skipped as far as it goes. */
  lemma {:induction false} SpacingEndIsMaximal(buffer: seq<char>, p: int)
    requires Terminated(buffer) && 0 <= p < |buffer|
    ensures !StartsSpacing(buffer, SpacingEnd(buffer, p))
    ensures SpacingEnd(buffer, p) == p <==> !StartsSpacing(buffer, p)
    decreases |buffer| - p
  {
    if StartsSpacing(buffer, p) {
      SpacingEndIsMaximal(buffer, LayoutStep(buffer, p));
    }
  }

  /** After an identifier starting at `p`, and the layout that follows it,
      the text continues with "<-": the start of a new definition. */
  predicate StartsDefinition(buffer: seq<char>, p: int)
    requires Terminated(buffer) && 0 <= p < |buffer|
  {
    && IsIdentStart(buffer[p])
    && p + 1 < |buffer|
    && StartsArrow(buffer, SpacingEnd(buffer, IdentRunEnd(buffer, p + 1)))
  }

  /** "<-" is at `p`. */
  predicate StartsArrow(buffer: seq<char>, p: int)
    requires 0 <= p
  {
    p + 1 < |buffer| && buffer[p] == '<' && buffer[p + 1] == '-'
  }

  /** `t` holds `token` somewhere in slots `lo .. hi`. */
  ghost predicate Recorded(t: seq<Token>, lo: int, hi: int, token: Token)
    requires 0 <= lo && hi <= |t|
  {
    exists k :: lo <= k < hi && t[k] == token
  }

  /** A token kept by a later step is still recorded after it. */
  lemma KeptIsRecorded(before: Machine, after: Machine, lo: int, k: int, hi: int)
    requires Keeps(before, after) && 0 <= lo <= k < before.cursor.tokenIndex <= hi <= |after.log.tree|
    ensures Recorded(after.log.tree, lo, hi, before.log.tree[k])
  {
    assert after.log.tree[k] == after.log.tree[..before.cursor.tokenIndex][k];
  }

  // ---------------------------------------------------------------------
  // Rule closures. Each one enters a level, runs its body from the entry
  // state and leaves through `Close`, which records the rule's span or
  // restores the snapshot.
  // ---------------------------------------------------------------------

  /** `EndOfLine <- '\r' '\n' / '\n' / '\r'`. */
  method EndOfLine(buffer: seq<char>, m: Machine) returns (r: Outcome)
    requires Valid(buffer, m)
    ensures Obeys(buffer, m, r, RuleEndOfLine)
    ensures r.matched <==> IsLineBreak(buffer[m.cursor.position])
    ensures r.matched ==>
      r.machine.cursor == m.cursor.(position := BreakEnd(buffer, m.cursor.position), tokenIndex := m.cursor.tokenIndex + 1)
    ensures !r.matched ==> r.machine.log == m.log
  {
    var entry := Enter(m);
    var body := MatchChar(buffer, entry, '\r');
    if body.matched {
      body := MatchChar(buffer, body.machine, '\n');
    }
    if !body.matched {
      body := MatchChar(buffer, entry, '\n');
      if !body.matched {
        body := MatchChar(buffer, entry, '\r');
      }
    }
    r := Close(buffer, m, body, RuleEndOfLine);
  }

  /** `EndOfFile <- !.`: matches, consuming nothing, exactly at the
      sentinel. */
  method EndOfFile(buffer: seq<char>, m: Machine) returns (r: Outcome)
    requires Valid(buffer, m)
    ensures Obeys(buffer, m, r, RuleEndOfFile)
    ensures r.matched <==> buffer[m.cursor.position] == EndSymbol
    ensures r.matched ==> r.machine.cursor == m.cursor.(tokenIndex := m.cursor.tokenIndex + 1)
  {
    var entry := Enter(m);
    var dot := MatchDot(buffer, entry);
    r := Close(buffer, m, Outcome(!dot.matched, entry), RuleEndOfFile);
  }

  /** `Space <- ' ' / '\t' / EndOfLine`. */
  method Space(buffer: seq<char>, m: Machine) returns (r: Outcome)
    requires Valid(buffer, m)
    ensures Obeys(buffer, m, r, RuleSpace)
    ensures r.matched <==> IsBlank(buffer[m.cursor.position])
    ensures r.matched ==> r.machine.cursor.position == LayoutStep(buffer, m.cursor.position)
  {
    var entry := Enter(m);
    var body := MatchChar(buffer, entry, ' ');
    if !body.matched {
      body := MatchChar(buffer, entry, '\t');
    }
    if !body.matched {
      body := EndOfLine(buffer, entry);
    }
    r := Close(buffer, m, body, RuleSpace);
  }

  /** `(!EndOfLine .)*` inside a comment: stops in front of the first line
      break or the sentinel. Each lookahead `!EndOfLine` that fails leaves
      the span of the line end it saw in the log above the restored write
      index. */
  method CommentText(buffer: seq<char>, m: Machine) returns (r: Outcome)
    requires Valid(buffer, m)
    ensures r.matched && Progress(buffer, m, r)
    ensures r.machine.cursor == m.cursor.(position := LineStop(buffer, m.cursor.position))
    // the line end the last lookahead saw stays in the slot it was written to
    ensures IsLineBreak(buffer[r.machine.cursor.position]) ==>
      && m.cursor.tokenIndex < |r.machine.log.tree|
      && r.machine.log.tree[m.cursor.tokenIndex] ==
           Token(RuleEndOfLine, r.machine.cursor.position, BreakEnd(buffer, r.machine.cursor.position), m.cursor.depth)
  {
    var cur := m;
    var stop := false;
    while !stop
      invariant Valid(buffer, cur) && Progress(buffer, m, Outcome(true, cur))
      invariant cur.cursor == m.cursor.(position := cur.cursor.position)
      invariant LineStop(buffer, cur.cursor.position) == LineStop(buffer, m.cursor.position)
      invariant stop ==> cur.cursor.position == LineStop(buffer, cur.cursor.position)
      invariant stop && IsLineBreak(buffer[cur.cursor.position]) ==>
        && m.cursor.tokenIndex < |cur.log.tree|
        && cur.log.tree[m.cursor.tokenIndex] ==
             Token(RuleEndOfLine, cur.cursor.position, BreakEnd(buffer, cur.cursor.position), m.cursor.depth)
      decreases |buffer| - cur.cursor.position + (if stop then 0 else 1)
    {
      var eol := EndOfLine(buffer, cur);
      var restored := eol.machine.(cursor := cur.cursor);
      ProgressRetain(buffer, m, cur, restored);
      if eol.matched {
        cur := restored;
        stop := true;
      } else {
        var dot := MatchDot(buffer, restored);
        stop := !dot.matched;
        cur := dot.machine;
      }
    }
    r := Outcome(true, cur);
  }

  /** `Comment <- '#' (!EndOfLine .)* EndOfLine`. */
  method Comment(buffer: seq<char>, m: Machine) returns (r: Outcome)
    requires Valid(buffer, m)
    ensures Obeys(buffer, m, r, RuleComment)
    ensures r.matched <==> StartsComment(buffer, m.cursor.position)
    ensures r.matched ==> r.machine.cursor.position == LayoutStep(buffer, m.cursor.position)
  {
    var entry := Enter(m);
    var body := MatchChar(buffer, entry, '#');
    if body.matched {
      var text := CommentText(buffer, body.machine);
      ProgressThen(buffer, entry, body, text);
      body := EndOfLine(buffer, text.machine);
      ObeysProgress(buffer, text.machine, body, RuleEndOfLine);
      ProgressThen(buffer, entry, text, body);
    }
    r := Close(buffer, m, body, RuleComment);
  }

  /** `Spacing <- (Space / Comment)*`: always matches, and skips exactly the
      layout in front of the cursor. */
  method Spacing(buffer: seq<char>, m: Machine) returns (r: Outcome)
    requires Valid(buffer, m)
    ensures Obeys(buffer, m, r, RuleSpacing) && r.matched
    ensures r.machine.cursor.position == SpacingEnd(buffer, m.cursor.position)
  {
    var entry := Enter(m);
    var cur := entry;
    var stop := false;
    while !stop
      invariant Valid(buffer, cur) && Progress(buffer, entry, Outcome(true, cur))
      invariant SpacingEnd(buffer, cur.cursor.position) == SpacingEnd(buffer, entry.cursor.position)
      invariant stop ==> !StartsSpacing(buffer, cur.cursor.position)
      decreases |buffer| - cur.cursor.position + (if stop then 0 else 1)
    {
      var step := Space(buffer, cur);
      ObeysProgress(buffer, cur, step, RuleSpace);
      if !step.matched {
        var space := step.machine;
        step := Comment(buffer, space);
        ObeysProgress(buffer, space, step, RuleComment);
        if !step.matched {
          KeepsThen(cur, space, step.machine);
        }
      }
      if step.matched {
        ProgressThen(buffer, entry, Outcome(true, cur), step);
      } else {
        ProgressRetain(buffer, entry, cur, step.machine);
        stop := true;
      }
      cur := step.machine;
    }
    r := Close(buffer, m, Outcome(true, cur), RuleSpacing);
  }

  /** `LeftArrow <- '<' '-' Spacing`. */
  method LeftArrow(buffer: seq<char>, m: Machine) returns (r: Outcome)
    requires Valid(buffer, m)
    ensures Obeys(buffer, m, r, RuleLeftArrow)
    ensures r.matched <==> StartsArrow(buffer, m.cursor.position)
    ensures r.matched ==> r.machine.cursor.position == SpacingEnd(buffer, m.cursor.position + 2)
  {
    var entry := Enter(m);
    var body := MatchChar(buffer, entry, '<');
    if body.matched {
      body := MatchChar(buffer, body.machine, '-');
    }
    if body.matched {
      var spacing := Spacing(buffer, body.machine);
      ObeysProgress(buffer, body.machine, spacing, RuleSpacing);
      ProgressThen(buffer, entry, body, spacing);
      body := spacing;
    }
    r := Close(buffer, m, body, RuleLeftArrow);
  }

  /** `IdentStart <- [a-z] / [A-Z] / '_'`. */
  method IdentStart(buffer: seq<char>, m: Machine) returns (r: Outcome)
    requires Valid(buffer, m)
    ensures Obeys(buffer, m, r, RuleIdentStart)
    ensures r.matched <==> IsIdentStart(buffer[m.cursor.position])
    ensures r.matched ==> r.machine.cursor.position == m.cursor.position + 1
  {
    var entry := Enter(m);
    var body := MatchRange(buffer, entry, 'a', 'z');
    if !body.matched {
      body := MatchRange(buffer, entry, 'A', 'Z');
    }
    if !body.matched {
      body := MatchChar(buffer, entry, '_');
    }
    r := Close(buffer, m, body, RuleIdentStart);
  }

  /** `IdentCont <- IdentStart / [0-9]`. */
  method IdentCont(buffer: seq<char>, m: Machine) returns (r: Outcome)
    requires Valid(buffer, m)
    ensures Obeys(buffer, m, r, RuleIdentCont)
    ensures r.matched <==> IsIdentCont(buffer[m.cursor.position])
    ensures r.matched ==> r.machine.cursor.position == m.cursor.position + 1
  {
    var entry := Enter(m);
    var body := IdentStart(buffer, entry);
    ObeysProgress(buffer, entry, body, RuleIdentStart);
    if !body.matched {
      body := MatchRange(buffer, body.machine, '0', '9');
    }
    r := Close(buffer, m, body, RuleIdentCont);
  }

  /** `IdentStart IdentCont*`, the text an identifier captures. */
  method IdentText(buffer: seq<char>, m: Machine) returns (r: Outcome)
    requires Valid(buffer, m)
    ensures Progress(buffer, m, r)
    ensures r.matched <==> IsIdentStart(buffer[m.cursor.position])
    ensures r.matched ==> r.machine.cursor.position == IdentRunEnd(buffer, m.cursor.position + 1)
  {
    r := IdentStart(buffer, m);
    ObeysProgress(buffer, m, r, RuleIdentStart);
    if r.matched {
      var cur := r.machine;
      var stop := false;
      while !stop
        invariant Valid(buffer, cur) && Progress(buffer, m, Outcome(true, cur))
        invariant m.cursor.position < cur.cursor.position
        invariant IdentRunEnd(buffer, cur.cursor.position) == IdentRunEnd(buffer, m.cursor.position + 1)
        invariant stop ==> !IsIdentCont(buffer[cur.cursor.position])
        decreases |buffer| - cur.cursor.position + (if stop then 0 else 1)
      {
        var cont := IdentCont(buffer, cur);
        ObeysProgress(buffer, cur, cont, RuleIdentCont);
        if cont.matched {
          ProgressThen(buffer, m, Outcome(true, cur), cont);
        } else {
          ProgressRetain(buffer, m, cur, cont.machine);
          stop := true;
        }
        cur := cont.machine;
      }
      r := Outcome(true, cur);
    }
  }

  /** `Identifier <- <IdentStart IdentCont*> Spacing`: on success the name
      is recorded as a `PegText` span one level down, and the layout after
      it is skipped. */
  method Identifier(buffer: seq<char>, m: Machine) returns (r: Outcome)
    requires Valid(buffer, m)
    ensures Obeys(buffer, m, r, RuleIdentifier)
    ensures r.matched <==> IsIdentStart(buffer[m.cursor.position])
    ensures r.matched ==> r.machine.cursor.position == SpacingEnd(buffer, IdentRunEnd(buffer, m.cursor.position + 1))
    ensures r.matched ==> Recorded(r.machine.log.tree, m.cursor.tokenIndex, r.machine.cursor.tokenIndex - 1,
      Token(RulePegText, m.cursor.position, IdentRunEnd(buffer, m.cursor.position + 1), m.cursor.depth + 1))
  {
    var entry := Enter(m);
    var text := IdentText(buffer, Enter(entry));
    var body := Capture(buffer, entry, text, RulePegText);
    if body.matched {
      var captured := body.machine;
      ObeysProgress(buffer, entry, body, RulePegText);
      var spacing := Spacing(buffer, captured);
      ObeysProgress(buffer, captured, spacing, RuleSpacing);
      ProgressThen(buffer, entry, body, spacing);
      body := spacing;
      r := Close(buffer, m, body, RuleIdentifier);
      KeepsThen(captured, body.machine, r.machine);
      KeptIsRecorded(captured, r.machine, m.cursor.tokenIndex, captured.cursor.tokenIndex - 1, r.machine.cursor.tokenIndex - 1);
    } else {
      r := Close(buffer, m, body, RuleIdentifier);
    }
  }

  /** An action closure (`Action0` to `Action45`): record an empty span at
      the cursor, at the current depth, without entering a level. */
  function Action(buffer: seq<char>, m: Machine, rule: Rule): (r: Outcome)
    requires Valid(buffer, m)
    ensures Obeys(buffer, m, r, rule) && r.matched
    ensures r.machine.cursor == m.cursor.(tokenIndex := m.cursor.tokenIndex + 1)
  {
    Outcome(true, AddSpan(m, rule, m.cursor.position))
  }

  /** `Identifier LeftArrow`, the first alternative of the lookahead. */
  method NextDefinition(buffer: seq<char>, m: Machine) returns (r: Outcome)
    requires Valid(buffer, m)
    ensures Valid(buffer, r.machine) && Keeps(m, r.machine)
    ensures r.matched <==> StartsDefinition(buffer, m.cursor.position)
  {
    r := Identifier(buffer, m);
    if r.matched {
      var ident := r.machine;
      r := LeftArrow(buffer, ident);
      KeepsThen(m, ident, r.machine);
    }
  }

  /** `&((Identifier LeftArrow) / !.)`: consumes nothing; holds where the
      next definition starts or at the end of the input. */
  method DefinitionLookahead(buffer: seq<char>, m: Machine) returns (r: Outcome)
    requires Valid(buffer, m)
    ensures Progress(buffer, m, r)
    ensures r.machine.cursor == m.cursor
    ensures r.matched <==>
      StartsDefinition(buffer, m.cursor.position) || buffer[m.cursor.position] == EndSymbol
  {
    var next := NextDefinition(buffer, m);
    var restored := next.machine.(cursor := m.cursor);
    if next.matched {
      r := Outcome(true, restored);
    } else {
      var dot := MatchDot(buffer, restored);
      r := Outcome(!dot.matched, restored);
    }
  }

  /** `Identifier Action3 LeftArrow`: the head of a definition. */
  method DefinitionHead(buffer: seq<char>, m: Machine) returns (r: Outcome)
    requires Valid(buffer, m)
    ensures Progress(buffer, m, r)
    ensures r.matched <==> StartsDefinition(buffer, m.cursor.position)
  {
    r := Identifier(buffer, m);
    ObeysProgress(buffer, m, r, RuleIdentifier);
    if r.matched {
      var ident := r;
      var action := Action(buffer, ident.machine, RuleAction3);
      ObeysProgress(buffer, ident.machine, action, RuleAction3);
      ProgressThen(buffer, m, ident, action);
      r := LeftArrow(buffer, action.machine);
      ObeysProgress(buffer, action.machine, r, RuleLeftArrow);
      ProgressThen(buffer, m, action, r);
    }
  }

  /** `Expression Action4 &((Identifier LeftArrow) / !.)`: the tail of a
      definition, for any `expression` closure keeping the rule contract. */
  method DefinitionTail(buffer: seq<char>, m: Machine, expression: RuleFn) returns (r: Outcome)
    requires Valid(buffer, m) && ObeysAlways(expression, buffer, RuleExpression)
    ensures Progress(buffer, m, r)
    ensures r.matched ==>
      StartsDefinition(buffer, r.machine.cursor.position) || buffer[r.machine.cursor.position] == EndSymbol
  {
    r := expression(buffer, m);
    Apply(expression, buffer, RuleExpression, m);
    ObeysProgress(buffer, m, r, RuleExpression);
    if r.matched {
      var expr := r;
      var action := Action(buffer, expr.machine, RuleAction4);
      ObeysProgress(buffer, expr.machine, action, RuleAction4);
      ProgressThen(buffer, m, expr, action);
      r := DefinitionLookahead(buffer, action.machine);
      ProgressThen(buffer, m, action, r);
    }
  }

  /** `Definition <- Identifier Action3 LeftArrow Expression Action4
      &((Identifier LeftArrow) / !.)`, with `Expression` supplied as any
      closure keeping the rule contract: a definition matches only where a
      name and "<-" start it, and ends where the next definition starts or
      at the end of the input. */
  method Definition(buffer: seq<char>, m: Machine, expression: RuleFn) returns (r: Outcome)
    requires Valid(buffer, m) && ObeysAlways(expression, buffer, RuleExpression)
    ensures Obeys(buffer, m, r, RuleDefinition)
    ensures r.matched ==> StartsDefinition(buffer, m.cursor.position)
    ensures r.matched ==>
      StartsDefinition(buffer, r.machine.cursor.position) || buffer[r.machine.cursor.position] == EndSymbol
  {
    var entry := Enter(m);
    var body := DefinitionHead(buffer, entry);
    if body.matched {
      var head := body;
      body := DefinitionTail(buffer, head.machine, expression);
      ProgressThen(buffer, entry, head, body);
    }
    r := Close(buffer, m, body, RuleDefinition);
  }
}

=== FILE: tokenlog.dfy ===
/** The append-by-index span log (`tokens16` / `tokens32` in peg.peg.go).

    `wide == false` is the narrow `tokens16` representation the engine
    starts with; `Expand` promotes it once to the wide `tokens32`
    representation. `ordered` is the cached result of `Order`. */
module TokenLog {
  import opened Wrappers
  import opened Tokens

  datatype Log = Log(tree: seq<Token>, ordered: Option<seq<seq<Token>>>, wide: bool)

  /** `n` zero tokens: what `make([]token32, n)` allocates. */
  function Zeros(n: nat): (z: seq<Token>)
    ensures |z| == n
    ensures forall i :: 0 <= i < n ==> z[i] == Zero
  {
    seq(n, _ => Zero)
  }

  /** The log `Init` allocates: `tokens16{tree: make([]token16, math.MaxInt16)}`. */
  function Initial(): (log: Log)
    ensures |log.tree| == MaxInt16 && !log.wide && log.ordered.None?
    ensures forall i :: 0 <= i < |log.tree| ==> log.tree[i] == Zero
  {
    Log(Zeros(MaxInt16), None, false)
  }

  /** `Add`: overwrite slot `index`; Go panics when it is out of range. */
  function Add(log: Log, rule: Rule, begin: int, end: int, depth: int, index: int): (r: Log)
    requires 0 <= index < |log.tree|
    ensures |r.tree| == |log.tree| && r.wide == log.wide && r.ordered == log.ordered
    ensures r.tree[index] == Token(rule, begin, end, depth)
    ensures forall i :: 0 <= i < |log.tree| && i != index ==> r.tree[i] == log.tree[i]
  {
    log.(tree := log.tree[index := Token(rule, begin, end, depth)])
  }

  /** `trim`: keep the first `length` tokens (`t.tree[0:length]`, which Go
      only allows up to the slice's capacity, here its length). */
  function Trim(log: Log, length: int): (r: Log)
    requires 0 <= length <= |log.tree|
    ensures |r.tree| == length
    ensures forall i :: 0 <= i < length ==> r.tree[i] == log.tree[i]
    ensures r.wide == log.wide && r.ordered == log.ordered
  {
    log.(tree := log.tree[..length])
  }

  /** Trimming twice to the same length is the same as trimming once. */
  lemma TrimIdempotent(log: Log, length: int)
    requires 0 <= length <= |log.tree|
    ensures Trim(Trim(log, length), length) == Trim(log, length)
  {
  }

  /** `Expand(index)`. The result pairs the receiver as it is after the call
      with the value the Go method returns: the narrow log answers with a
      fresh wide copy of twice the size and stays as it was; the wide log
      doubles its own tree in place and answers `nil`. Nothing happens
      while `index` is still inside the tree. */
  function Expand(log: Log, index: int): (r: (Log, Option<Log>))
    ensures index < |log.tree| ==> r == (log, None)
    ensures index >= |log.tree| && !log.wide ==>
      r.0 == log && r.1.Some? && r.1.value.wide && r.1.value.ordered.None?
    ensures index >= |log.tree| && log.wide ==>
      r.1.None? && r.0.wide && r.0.ordered == log.ordered
    ensures index >= |log.tree| ==>
      var grown := if r.1.Some? then r.1.value else r.0;
      && |grown.tree| == 2 * |log.tree|
      && (forall i :: 0 <= i < |log.tree| ==> grown.tree[i] == log.tree[i])
      && (forall i :: |log.tree| <= i < 2 * |log.tree| ==> grown.tree[i] == Zero)
  {
    if index >= |log.tree| then
      var expanded := log.tree + Zeros(|log.tree|);
      if log.wide then (log.(tree := expanded), None)
      else (log, Some(Log(expanded, None, true)))
    else (log, None)
  }

  /** The log the engine writes to after `Expand`: the returned one when
      it is not `nil`, the receiver otherwise (the `add` closure). */
  function Grow(log: Log, index: int): (r: Log)
    requires |log.tree| > 0 && 0 <= index <= |log.tree|
    ensures 0 <= index < |r.tree|
    ensures |r.tree| >= |log.tree|
    ensures forall i :: 0 <= i < |log.tree| ==> r.tree[i] == log.tree[i]
    ensures log.wide ==> r.wide
    ensures index < |log.tree| ==> r == log
    ensures index == |log.tree| ==> r.wide && |r.tree| == 2 * |log.tree|
  {
    var (self, returned) := Expand(log, index);
    if returned.Some? then returned.value else self
  }
}

=== FILE: tokens.dfy ===
/** Span records of the parse log (`token16` / `token32` in peg.peg.go).

    Both Go variants hold a rule and three offsets; they differ only in the
    width of those offsets. The model keeps a single token over unbounded
    integers, so `GetToken32` (the widening copy) is the identity here. */
module Tokens {

  /** The Go `Rule` type is a `uint8`. */
  newtype Rule = r: int | 0 <= r < 256

  // The rule identifiers the model refers to, numbered as in the Go
  // enumeration that starts `RuleUnknown Rule = iota`.
  const RuleUnknown: Rule := 0
  const RuleGrammar: Rule := 1
  const RuleDefinition: Rule := 2
  const RuleExpression: Rule := 3
  const RuleIdentifier: Rule := 8
  const RuleIdentStart: Rule := 9
  const RuleIdentCont: Rule := 10
  const RuleLeftArrow: Rule := 20
  const RuleSpacing: Rule := 30
  const RuleComment: Rule := 31
  const RuleSpace: Rule := 32
  const RuleEndOfLine: Rule := 33
  const RuleEndOfFile: Rule := 34
  const RuleAction0: Rule := 39
  const RuleAction3: Rule := 42
  const RuleAction4: Rule := 43
  const RulePegText: Rule := 58
  const RuleAction45: Rule := 85
  /** Synthetic gap labels emitted by the pre-order walk. */
  const RulePre: Rule := 86
  const RuleIn: Rule := 87
  const RuleSuf: Rule := 88

  /** `math.MaxInt16`: the initial capacity of the narrow log and of the
      depth counter slice used by `Order`. */
  const MaxInt16: int := 32767

  /** A recorded span [begin, end) of `rule`. While recording, `next` holds
      the nesting depth; `Order` replaces it with the token's index. */
  datatype Token = Token(rule: Rule, begin: int, end: int, next: int)

  /** The zero value of the Go struct. */
  const Zero: Token := Token(RuleUnknown, 0, 0, 0)

  predicate IsGap(r: Rule) {
    r == RulePre || r == RuleIn || r == RuleSuf
  }

  /** `isParentOf`: `t` covers `u` and was recorded at a strictly smaller
      `next` (a shallower depth, or an earlier index after `Order`). */
  predicate IsParentOf(t: Token, u: Token) {
    t.begin <= u.begin && t.end >= u.end && t.next > u.next
  }

  /** Containment is a strict order: no token is its own parent ... */
  lemma ParentOfIrreflexive(t: Token)
    ensures !IsParentOf(t, t)
  {
  }

  /** ... and a parent of a parent is a parent. */
  lemma ParentOfTransitive(t: Token, u: Token, v: Token)
    requires IsParentOf(t, u) && IsParentOf(u, v)
    ensures IsParentOf(t, v)
  {
  }
}

=== FILE: wrappers.dfy ===
/** Failure-compatible helper datatype shared by the model. */
module Wrappers {

  /** `None` stands for an absent value: a Go `nil` return, or a run that
      stopped on an index out of range. */
  datatype Option<+T> = None | Some(value: T)
}
